=== FILE: README.md ===
# HODL OR DIE score services, modelled in Dafny

The game lets a wallet hold a button for as long as it can. The longest hold
in a round wins a pot that is paid out on chain. This project models the
parts of the backend and frontend that score rounds and close them:

- **backend/server.js** (module `KeepMaxLedger`): an in-memory ledger
  `scores[roundId][wallet] = {bestScoreMs, bestScoreAt}`. The wallet is
  lower-cased, and a submission only ever raises a wallet's best. It also
  models the per-round leaderboard (score descending, then earlier
  `bestScoreAt`, first 100) and the admin finalize. Finalize checks the API
  key, names every wallet that shares the round's top score and advances
  the local round counter.
- **backend/index.js** (module `ThresholdRounds`): an append-only score log.
  After each accepted score it checks whether the round's pot has reached
  the payout threshold. If a signer is configured and the payout
  transaction confirms, the round is closed for the first logged record
  holding the round's top score, and the backend's round counter moves to
  the next round. Wallets are kept exactly
  as sent. The leaderboard covers every round.
- **frontend/src/App.jsx** (module `ClientHelpers`): `formatMs`, `shorten`
  and the rule by which the page keeps the player's best attempt.

Supporting modules:

- `Dict` models a JavaScript object used as a dictionary. Keys stay in
  insertion order; writing to a present key overwrites it in place.
- `Ranking` holds the leaderboard order and an insertion sort.
- `JsValues` covers truthiness, `Number()` and `toLowerCase`.
- `Decimal` covers `String(n)`, digit strings and `padStart`.
- `Wrappers` holds `Option`.

Each HTTP handler is a pure function from the state and the request to the
new state and the reply. The chain is an input:

- the pot read: a wei amount, or `None` when the RPC call fails;
- whether a signer exists;
- whether the payout transaction confirms;
- for server.js, what the contract call did.

`Date.now()` is a parameter. In index.js the submit handler reads the clock
twice: once for the record's `createdAt` and once, after the awaited pot
read and payout, for the `closedAt` that `closeRound` stores. The model
passes these as two parameters.

Ties. JavaScript objects list string keys in insertion order, and
`Array.prototype.sort` is stable. So in the source, ties that the
comparator leaves open keep their listing order. The model records that
position as `seqNo` in each `Ranking.Standing` and orders by (score
descending, time ascending, position ascending). That order is total, and
`Ranking.RankedIsUnique` proves that it fixes the result. For index.js
this means the round winner is the earliest logged record with the highest
score. `ThresholdRounds.LeadIsSortedHead` and `ThresholdRounds.LeadInLog`
prove this, and `ThresholdRounds.CheckThresholdAndMaybeClose` states it.

Behaviour the proofs bring out:

- In index.js, redirecting a score for a closed round to `currentRoundId`
  does not keep scores out of closed rounds. `closeRound` sets the counter
  to `roundId + 1`, and that round may already be closed.
  `ThresholdRounds.RedirectCanLandInClosedRound` gives a reachable example.
  The behaviour is modelled as the code has it.
- In server.js, finalize always advances `currentRoundId` by one, even when
  the request names a round other than the current one.
- `formatMs` prints positive durations as `SS:CC` but prints the zero case
  as `00:00.00`, which has one more field.

Other facts about the code that the model keeps:

- index.js keys wallets case-sensitively, and its leaderboard spans all
  rounds.
- The server.js submit reply is `{ok: true}`. It does not report the stored
  best.
- server.js names every wallet tied at the top score as a winner. index.js
  picks one.
- No timing-session check exists in these files. Every score a client sends
  is taken as it is.

## Model

| member | source | states |
|---|---|---|
| KeepMaxLedger.EnsureRound | backend/server.js:37-41 | the round gets a container; no entry of any round and not the round counter changes |
| KeepMaxLedger.Store | backend/server.js:72-75 | writing `scores[r][w]` changes that one entry and no other entry of any round; other rounds keep their rows and order; in round r the entry is overwritten where it stands or, for a new wallet, appended at the end; it keeps one lower-case key per wallet |
| KeepMaxLedger.SubmitScore | backend/server.js:58-83 | 400 exactly when `walletAddress` is falsy or `scoreMs` is not a number, with no state change; 500 for a truthy non-string wallet, after `ensureRound` and with no entry changed; otherwise the entry for (round, lower-cased wallet) becomes max(old, score), its time moves to `now` exactly on a strict improvement, every other entry is unchanged, other rounds keep their rows and order, and the round's entries keep their positions (an improved entry is overwritten in place, a new wallet is appended); the round counter never changes |
| KeepMaxLedger.SubmitRound | backend/server.js:64 | a non-zero `roundId` is used; a missing or zero one gives `currentRoundId` |
| KeepMaxLedger.ValidPayload | backend/server.js:61 | a missing, null or empty wallet is refused; a score that is not a number is refused, even a numeric string; a non-empty string wallet with a numeric score passes |
| KeepMaxLedger.SubmitIgnoresWalletCase | backend/server.js:69-72 | wallets that lower-case alike have identical effect |
| KeepMaxLedger.SubmitNeverLowersBest | backend/server.js:69-76 | no submission of any kind lowers a stored best score |
| KeepMaxLedger.SubmitElsewhereKeepsEntry | backend/server.js:64-76 | a submission that is not an accepted one for (r, w) leaves that entry as it was |
| KeepMaxLedger.ReplayKeepsMaximum | backend/server.js:64-76 | after any sequence of submissions, a fresh entry exists exactly when an accepted submission targeted it, and it holds the maximum of their scores |
| KeepMaxLedger.Leaderboard | backend/server.js:86-111 | the round is `Number(roundId) \|\| currentRoundId`; the list is ranked by score descending, then earlier time, then key position, and is drawn without repeats from the round's standings with their positions, so ties keep insertion order; it holds min(100, entries) entries of that round; every entry left out ranks below every listed one; wallets are distinct |
| KeepMaxLedger.StandingsOf | backend/server.js:92-96 | one standing per entry of the round, in key order, carrying wallet, best score, time and position |
| KeepMaxLedger.WalletsScoring | backend/server.js:144 | the filtered wallets are exactly those of standings with the given score, without repeats when wallets are distinct |
| KeepMaxLedger.WinnersAreTopScorers | backend/server.js:125-144 | the winners computed from the sorted list are exactly the wallets holding the round's top score |
| KeepMaxLedger.Authorized | backend/server.js:116-117 | a missing or empty key is refused, every key is refused when no admin key is configured, and otherwise the key passes exactly when it equals the admin key |
| KeepMaxLedger.FinalizeRound | backend/server.js:114-161 | 401 with no state change exactly when the API key is missing, empty or wrong; `no_scores` exactly for an empty round, counter unchanged; 500 exactly when the payout transaction fails, counter unchanged; otherwise non-empty, repeat-free winners that are exactly the top scorers, and the counter goes up by one; stored scores never change |
| KeepMaxLedger.CurrentRound | backend/server.js:44-55 | a configured contract's round id replaces the local counter; a failed read changes nothing; scores are untouched |
| KeepMaxLedger.InitialIsWellFormed | backend/server.js:14-16 | the empty ledger holds one lower-case entry per wallet and round |
| Dict.Get | backend/server.js:69 | reading a key is absent exactly when no entry has that key, and otherwise returns a stored entry's value |
| Dict.Set | backend/server.js:72-75 | assigning to a new key appends it at the end; assigning to a present key overwrites it at its own position; every other entry keeps its place and value |
| Dict.GetAfterSet | backend/index.js:217-218 | after `obj[k] = v`, `obj[k]` is `v` and every other key reads as before |
| Dict.SetKeepsKeysDistinct | backend/index.js:217-218 | assignment never duplicates a key and adds exactly the assigned one |
| Dict.GetOfMember | backend/index.js:222 | with distinct keys, every listed entry is what reading its key returns |
| JsValues.ToLowerCase | backend/server.js:69 | lower-casing keeps the length and maps each character |
| JsValues.Truthy | backend/index.js:234-236 | a value is falsy exactly when it is `undefined`, `null`, `false`, `0` or `""` |
| JsValues.ToNumber | backend/index.js:239-240 | `undefined` gives `NaN`; `null`, `false` and `""` give 0; `true` gives 1; a number is itself; a string converts exactly when it is all digits, to a non-negative value |
| JsValues.NumberOfString | backend/index.js:239-240 | `Number(String(n))` is n for every non-negative n |
| JsValues.OrElse | backend/index.js:239 | `x \|\| fallback` keeps a non-zero number and otherwise gives the fallback; the result is non-zero when the fallback is |
| JsValues.LowerCaseIsIdempotent | backend/server.js:72 | a lower-cased wallet is already lower case |
| JsValues.CaseVariantsShareKey | backend/server.js:69-72 | two wallets that differ only in the case of letters map to the same key |
| Ranking.Insert | backend/server.js:98-104 | inserting into a ranked list gives a ranked list with one more copy of the element |
| Ranking.Sort | backend/server.js:98-104 | the result is ranked by score descending, then earlier time, and is a permutation of the input |
| Ranking.RankedIsUnique | backend/server.js:98-104 | two ranked permutations of the same standings are equal, so the stable sort of the source and this sort agree |
| Ranking.Top | backend/server.js:106 | the first n of the ranking: ranked, min(n, size) long, drawn from the input, and ranked above everything left out |
| Ranking.HeadRanksAboveAll | backend/server.js:143 | the head of a ranked list ranks at or above every element |
| Ranking.PermutationKeepsWalletsDistinct | backend/server.js:92-96 | a sub-multiset of standings with distinct wallets has distinct wallets |
| Decimal.Show | frontend/src/App.jsx:29-30 | `String(n)` is a non-empty run of digits with no leading zero, one digit exactly when n < 10 |
| Decimal.ValueOfShow | frontend/src/App.jsx:29-30 | reading back `String(n)` gives n |
| Decimal.PadStart | frontend/src/App.jsx:29-30 | `padStart(w, "0")` has length max(w, length), ends with the input and is zeros before it |
| Decimal.PadStartKeepsValue | frontend/src/App.jsx:29-30 | zero padding keeps a digit string's value |
| ThresholdRounds.CloseRound | backend/index.js:88-102 | afterwards the round is closed with this winner, pot and time, `currentRoundId` is round + 1, scores and all other rounds' metadata are unchanged |
| ThresholdRounds.IsRoundClosed | backend/index.js:84-86 | a round is closed exactly when it has a metadata row marked closed; a round without metadata is open |
| ThresholdRounds.ClosedRoundsAfterClose | backend/index.js:84-94 | after `closeRound(r, …)` exactly round r and the rounds closed before are closed |
| ThresholdRounds.RoundRecords | backend/index.js:160 | the filtered records are exactly the log's records of that round; order and repeats are stated by `RoundRecordsKeepsOrder` |
| ThresholdRounds.RoundRecordsKeepsOrder | backend/index.js:160 | filtering a concatenated log gives the concatenation of the filtered parts, so log order and repeats are kept |
| ThresholdRounds.RoundRecordsOfOne | backend/index.js:160 | a single record is kept exactly when it belongs to the round |
| ThresholdRounds.LeadIndex | backend/index.js:169-171 | the chosen record has the highest score, and every earlier record scores strictly less |
| ThresholdRounds.LeadIsSortedHead | backend/index.js:170-171 | the chosen record is the head of the log sorted by score descending |
| ThresholdRounds.LeadInLog | backend/index.js:160-171 | the winner the check picks is the first record of the round, in log order, that holds the round's highest score |
| ThresholdRounds.CheckThresholdAndMaybeClose | backend/index.js:148-199 | a closed round, an unreadable pot, a pot below threshold, a round with no scores, no signer or a failed payout leave the state unchanged; the round closes exactly when none of these holds, then via `closeRound`; a payout is attempted exactly when the round is open, the pot was read and reaches the threshold, the round has scores and a signer exists, and always for the first record in log order that holds the round's top score |
| ThresholdRounds.CheckClosesFor | backend/index.js:148-199 | an open round whose pot reaches the threshold, with a signer and a confirmed payout, is closed for the wallet holding its leading record, with the pot as `finalPot` |
| ThresholdRounds.ClosedRoundIsNeverPaidAgain | backend/index.js:149 | for a closed round, no later check attempts a payout or changes its metadata |
| ThresholdRounds.UserBest | backend/index.js:261-263 | the result is non-negative and at least every score the wallet logged in the round; when non-zero it is one of them |
| ThresholdRounds.Address | backend/index.js:234 | `wallet` when it is truthy, else `walletAddress` |
| ThresholdRounds.ValidAddress | backend/index.js:235 | a valid address is a non-empty string from `wallet` or `walletAddress`; a truthy non-string `wallet` is refused even beside a valid `walletAddress`; a non-empty string `wallet` passes |
| ThresholdRounds.ValidScore | backend/index.js:240-241 | a number passes exactly when positive; missing, null, false and "" are refused; `true` passes as 1 |
| ThresholdRounds.RequestedRound | backend/index.js:239 | `Number(roundId)` when it is a non-zero number, otherwise `currentRoundId` |
| ThresholdRounds.WinnerOf | backend/index.js:270 | a winner is reported exactly when the round has metadata with a non-empty winner, and it is that winner |
| ThresholdRounds.EffectiveRound | backend/index.js:239-245 | an open requested round is kept; a closed one is replaced by `currentRoundId`; the round changes only when the requested one is closed |
| ThresholdRounds.SubmitScore | backend/index.js:230-276 | 400 with no state change exactly when the address is falsy or not a string, or (with a valid address) when `Number(scoreMs)` is not positive; otherwise exactly one record is appended, in the effective round and stamped `createdAt`; the effective round is closed afterwards exactly when it was closed before or the chain pays out; the counter moves to round + 1 exactly when the submit closed the round and is unchanged otherwise; no other round's metadata changes; a newly closed round names the first top record's wallet, the pot and `closedAt`; the reported best is at least the score and is the wallet's maximum in that round; `roundClosed` is the round's state; the winner is reported exactly when the round is closed, and is the winner stored in the round's metadata; the state invariant is kept |
| ThresholdRounds.AppendThenCheck | backend/index.js:247-263 | appending a valid record and running the check keeps the log, reports the best correctly, keeps closed rounds and keeps the invariant |
| ThresholdRounds.CheckAfterAppend | backend/index.js:245-259 | after logging a record in round r, the check closes r exactly when it was open and the chain pays out; the counter moves to r + 1 exactly then; no other round's metadata changes; a newly closed round names the first top record's wallet |
| ThresholdRounds.UserBestCountsLast | backend/index.js:261-263 | the caller's best after logging a score is at least that score and is their round maximum |
| ThresholdRounds.CheckKeepsInv | backend/index.js:194 | the threshold check keeps every metadata row closed with a non-empty winner |
| ThresholdRounds.InitialSatisfiesInv | backend/index.js:76-82 | the initial empty log and metadata satisfy the invariant |
| ThresholdRounds.AggregateIsPerWalletMax | backend/index.js:215-220 | `byWallet` has each logged wallet exactly once, holding that wallet's maximum score over all rounds |
| ThresholdRounds.Aggregate | backend/index.js:215-220 | `byWallet` has at most one entry per logged record; its contents are stated by `AggregateIsPerWalletMax` |
| ThresholdRounds.AggregateStandings | backend/index.js:222 | one standing per `byWallet` entry, in insertion order, carrying wallet, best score and position |
| ThresholdRounds.Leaderboard | backend/index.js:212-228 | one entry per distinct wallet string, each the wallet's best over all rounds, every logged wallet listed, sorted by score descending, with equal scores in the order their wallets were first logged: the board is the ranked permutation of the `byWallet` entries with their insertion positions |
| ThresholdRounds.FirstScoreClosesRoundTwo | backend/index.js:245-259 | with the pot at threshold and a confirming payout, a first score for round 2 closes it and sets the counter to 3 |
| ThresholdRounds.SecondScoreClosesRoundOne | backend/index.js:245-259 | a following score for round 1 closes round 1 and sets the counter back to 2, itself closed |
| ThresholdRounds.RedirectCanLandInClosedRound | backend/index.js:245-252 | in that state a score sent for round 1 is redirected to round 2 and logged there although round 2 is closed |
| ClientHelpers.FormatMs | frontend/src/App.jsx:25-32 | missing, zero or negative gives `00:00.00`; otherwise whole seconds padded to at least two digits, `:`, and exactly two digits reading as the hundredths |
| ClientHelpers.ClockText | frontend/src/App.jsx:27-31 | the two fields read back as the seconds and hundredths given |
| ClientHelpers.ClockReadsBackDuration | frontend/src/App.jsx:27-28 | hundredths are at most 99 and the time shown is the duration rounded down to a hundredth of a second |
| ClientHelpers.Shorten | frontend/src/App.jsx:34-37 | empty for a missing or empty address; otherwise the first min(6, n) characters, `...`, and the last min(4, n) characters |
| ClientHelpers.ShortenKeepsBothEnds | frontend/src/App.jsx:36 | for ten characters or more the result is 13 long and putting the hidden middle back restores the address |
| ClientHelpers.KeepBest | frontend/src/App.jsx:231-238 | a rejected submission changes nothing; an accepted one replaces a missing, zero or smaller best, and only then |
| ClientHelpers.BestAfterIsLongest | frontend/src/App.jsx:236-238 | after accepted attempts of non-negative duration, the page's best is the longest of them |

## Left out

- HTTP plumbing is left out: Express routing, CORS, JSON parsing, `app.listen`, `process.exit` and env/dotenv configuration. Handlers are functions of (state, request).
- Calls to code outside these files become inputs: `getCurrentRoundInfoRaw`, the RPC `fetch`, ABI encoding and decoding, and ethers `Wallet`/`Contract`/`tx.wait()`. They are the pot read, the signer flag, the payout outcome and the contract round-id read.
- Floating-point ETH values are integers (wei) with the same `>=` comparison. This covers `THRESHOLD_ETH`, `formatEther` and `toFixed(4)`. The closing pot is stored as wei, not as a 4-decimal string.
- Console logging is left out.
- Concurrency is left out. Each request is one atomic step, so interleaving across the `await` of the threshold check is not modelled.
- `JsValues.ToNumber`: only `undefined`, `null`, booleans, integers and plain digit strings are modelled. Whitespace, signs, fractions, hex, exponents, arrays and objects are not, and other strings read as `NaN`.
- `JsValues.ToLowerCase`: covers ASCII letters only, because wallet addresses are hexadecimal. Unicode case mapping is not modelled.
- `KeepMaxLedger.SubmitScore`: `roundId` is taken as an optional integer. The handler does not pass it through `Number()`, and non-numeric round keys (strings, booleans) are not modelled. A non-integer or `NaN` `scoreMs` is not modelled either.
- KeepMaxLedger.SubmitScore: `scores[rId]` is a plain object, so a lower-cased wallet that names an inherited property (`constructor`, `__proto__`) reads a truthy `existing`. `scoreMs > undefined` is false, so the source stores nothing and still replies `{ok: true}`. The model treats the object as a dictionary without inherited keys and stores the score. Neither backend checks that a wallet is an address.
- ThresholdRounds.Aggregate: `byWallet` is a plain object, so a logged wallet that names an inherited property (`constructor`, `toString`, `valueOf`, `__proto__`, …) reads a truthy value from the start and never gets an entry. The model gives it one.
- ThresholdRounds.Leaderboard: because of that, such a wallet is missing from the source's leaderboard. The model lists every logged wallet.
- ClientHelpers.Shorten: Dafny strings are sequences of Unicode scalar values, while JavaScript `length` and `slice` count UTF-16 code units. A character outside the Basic Multilingual Plane (an emoji, say) counts once here and twice in the source, so such an address is cut at different places. Neither backend rejects such wallets.
- KeepMaxLedger.Leaderboard: JavaScript lists integer-like object keys, in numeric order, before other string keys. The model keeps insertion order for every key. This only changes the order of standings the comparator ties, and only for wallets such as `"7"`, which neither backend rejects. The same holds for `ThresholdRounds.Leaderboard`.
- backend/db.js is not part of this model: it only builds a Postgres pool that nothing here uses.
- Also not modelled: the rest of App.jsx (React state, wallet connection, the entry-fee transaction), the components and the smart-contract scripts. They are UI or deployment code.

=== FILE: client_helpers.dfy ===
/**
 Pure helpers of the player page in frontend/src/App.jsx: the `SS:CC`
 clock text for a duration in milliseconds, the abbreviated wallet address,
 and the rule by which the page keeps the player's best attempt.
 */
module ClientHelpers {
  import opened Wrappers
  import opened Decimal

  /** What `formatMs` shows for a missing, zero or negative duration. */
  const ZeroClock: string := "00:00.00"

  /** The digits before the colon of a clock text. */
  function SecondsField(r: string): string
    requires |r| >= 3
  {
    r[..|r| - 3]
  }

  /** The two digits after the colon of a clock text. */
  function CentisField(r: string): string
    requires |r| >= 3
  {
    r[|r| - 2..]
  }

  lemma {:induction false} ShowBelowHundred(n: nat)
    requires n < 100
    ensures |Show(n)| <= 2
  {
    if n >= 10 {
      assert Show(n) == Show(n / 10) + [DigitChar(n % 10)];
    }
  }

  /** Two digit fields joined by a colon, each padded to two digits. */
  function ClockText(totalSec: nat, centis: nat): (r: string)
    requires centis < 100
    ensures |r| >= 5
    ensures r[|r| - 3] == ':'
    ensures |SecondsField(r)| == Max(2, |Show(totalSec)|)
    ensures |CentisField(r)| == 2
    ensures AllDigits(SecondsField(r)) && AllDigits(CentisField(r))
    ensures Value(SecondsField(r)) == totalSec
    ensures Value(CentisField(r)) == centis
  {
    var s := PadStart(Show(totalSec), 2);
    var c := PadStart(Show(centis), 2);
    PaddedField(totalSec);
    PaddedField(centis);
    ShowBelowHundred(centis);
    JoinFields(s, c);
    s + ":" + c
  }

  /** The fields of `s:c` are `s` and `c` when `c` has two characters. */
  lemma JoinFields(s: string, c: string)
    requires |c| == 2
    ensures var r := s + ":" + c;
            |r| == |s| + 3 && r[|r| - 3] == ':' && SecondsField(r) == s && CentisField(r) == c
  {
    var r := s + ":" + c;
    assert r[..|r| - 3] == s;
    assert r[|r| - 2..] == c;
  }

  /** A number's spelling padded to two places still reads as that number. */
  lemma PaddedField(n: nat)
    ensures AllDigits(PadStart(Show(n), 2))
    ensures Value(PadStart(Show(n), 2)) == n
  {
    ValueOfShow(n);
    PadStartKeepsValue(Show(n), 2);
  }

  /**
   `formatMs(ms)`. A positive duration becomes its whole seconds, zero-padded
   to at least two digits, a colon, and exactly two digits of hundredths;
   anything else becomes the zero clock.
   */
  function FormatMs(ms: Option<int>): (r: string)
    ensures ms.None? || ms.value <= 0 ==> r == ZeroClock
    ensures ms.Some? && ms.value > 0 ==>
              && |r| >= 5
              && r[|r| - 3] == ':'
              && |SecondsField(r)| == Max(2, |Show(ms.value / 1000)|)
              && |CentisField(r)| == 2
              && AllDigits(SecondsField(r)) && AllDigits(CentisField(r))
              && Value(SecondsField(r)) == ms.value / 1000
              && Value(CentisField(r)) == (ms.value % 1000) / 10
  {
    if ms.None? || ms.value <= 0 then ZeroClock
    else ClockText(ms.value / 1000, (ms.value % 1000) / 10)
  }

  /**
   Reading the clock back: the hundredths lie in [0, 99] and the time shown
   is `ms` rounded down to the hundredth of a second.
   */
  lemma ClockReadsBackDuration(ms: int)
    requires ms > 0
    ensures var r := FormatMs(Some(ms));
            var sec := Value(SecondsField(r));
            var centis := Value(CentisField(r));
            && centis <= 99
            && sec * 1000 + centis * 10 <= ms < sec * 1000 + centis * 10 + 10
  {
    var sec := ms / 1000;
    var rest := ms % 1000;
    assert ms == sec * 1000 + rest;
    assert rest == (rest / 10) * 10 + rest % 10;
  }

  /**
   `shorten(addr)`: empty for a missing or empty address, otherwise the
   first six characters, `...`, and the last four, with `slice` clamping on
   addresses shorter than that.
   */
  function Shorten(addr: Option<string>): (r: string)
    ensures addr.None? || addr.value == "" ==> r == ""
    ensures addr.Some? && addr.value != "" ==>
              var a := addr.value;
              var h := Min(6, |a|);
              var t := Min(4, |a|);
              && |r| == h + 3 + t
              && r[..h] == a[..h]
              && r[h..h + 3] == "..."
              && r[h + 3..] == a[|a| - t..]
  {
    if addr.None? || addr.value == "" then ""
    else
      var a := addr.value;
      a[..Min(6, |a|)] + "..." + a[|a| - Min(4, |a|)..]
  }

  /**
   For an address of ten characters or more the abbreviation is 13
   characters, and putting the hidden middle back between its two ends
   gives the address again.
   */
  lemma ShortenKeepsBothEnds(a: string)
    requires |a| >= 10
    ensures var r := Shorten(Some(a));
            && |r| == 13
            && r[6..9] == "..."
            && r[..6] + a[6..|a| - 4] + r[9..] == a
  {
    var r := Shorten(Some(a));
    assert r[..6] == a[..6];
    assert r[9..] == a[|a| - 4..];
    assert a == a[..6] + a[6..|a| - 4] + a[|a| - 4..];
  }

  /**
   The best-attempt update in `stopHolding`: nothing changes unless the
   backend accepted the score; then the attempt replaces a missing or zero
   best, or a smaller one.
   */
  function KeepBest(prev: Option<int>, finalMs: int, accepted: bool): (b: Option<int>)
    ensures !accepted ==> b == prev
    ensures b != prev ==> b == Some(finalMs)
    ensures accepted ==> (b == Some(finalMs) <==> prev.None? || prev.value == 0 || finalMs >= prev.value)
  {
    if accepted && (prev.None? || prev.value == 0 || finalMs > prev.value) then Some(finalMs) else prev
  }

  /** The page's best after a run of accepted attempts, starting from `prev`. */
  function BestAfter(prev: Option<int>, attempts: seq<int>): Option<int>
  {
    if |attempts| == 0 then prev
    else KeepBest(BestAfter(prev, attempts[..|attempts| - 1]), attempts[|attempts| - 1], true)
  }

  /**
   Starting with no best, after accepted attempts of non-negative duration
   the page shows the longest of them.
   */
  lemma {:induction false} BestAfterIsLongest(attempts: seq<int>)
    requires forall i :: 0 <= i < |attempts| ==> attempts[i] >= 0
    ensures BestAfter(None, attempts).None? <==> |attempts| == 0
    ensures |attempts| > 0 ==>
              && (exists i :: 0 <= i < |attempts| && attempts[i] == BestAfter(None, attempts).value)
              && (forall i :: 0 <= i < |attempts| ==> attempts[i] <= BestAfter(None, attempts).value)
  {
    if |attempts| > 0 {
      var prefix := attempts[..|attempts| - 1];
      var last := attempts[|attempts| - 1];
      assert forall i :: 0 <= i < |prefix| ==> prefix[i] == attempts[i];
      BestAfterIsLongest(prefix);
      var before := BestAfter(None, prefix);
      var after := BestAfter(None, attempts);
      if before.Some? {
        var i :| 0 <= i < |prefix| && prefix[i] == before.value;
        assert attempts[i] == before.value;
      }
      assert after == Some(last) || after == before;
    }
  }
}

=== FILE: decimal.dfy ===
/**
 Decimal digit strings: the spelling `String(n)` gives a non-negative integer,
 the value a string of digits denotes, and `padStart` with zeros.
 */
module Decimal {

  predicate IsDigit(c: char)
  {
    '0' <= c <= '9'
  }

  predicate AllDigits(s: string)
  {
    forall i :: 0 <= i < |s| ==> IsDigit(s[i])
  }

  function DigitValue(c: char): nat
    requires IsDigit(c)
  {
    c as int - '0' as int
  }

  function DigitChar(d: nat): (c: char)
    requires d < 10
    ensures IsDigit(c) && DigitValue(c) == d
  {
    (d + '0' as int) as char
  }

  /** The number a string of digits denotes, most significant digit first. */
  function Value(s: string): nat
    requires AllDigits(s)
  {
    if |s| == 0 then 0 else 10 * Value(s[..|s| - 1]) + DigitValue(s[|s| - 1])
  }

  /** The decimal spelling of a non-negative integer: digits only, never empty, no leading zero. */
  function Show(n: nat): (s: string)
    ensures AllDigits(s)
    ensures 1 <= |s|
    ensures s[0] == '0' ==> n == 0
    ensures n < 10 <==> |s| == 1
  {
    if n < 10 then [DigitChar(n)] else Show(n / 10) + [DigitChar(n % 10)]
  }

  /** Reading back the spelling of n gives n. */
  lemma {:induction false} ValueOfShow(n: nat)
    ensures Value(Show(n)) == n
  {
    if n >= 10 {
      var s := Show(n);
      assert s[..|s| - 1] == Show(n / 10);
      ValueOfShow(n / 10);
    }
  }

  /** A leading zero does not change the value of a digit string. */
  lemma {:induction false} ValueIgnoresLeadingZero(s: string)
    requires AllDigits(s)
    ensures AllDigits("0" + s)
    ensures Value("0" + s) == Value(s)
  {
    if |s| > 0 {
      var t := "0" + s;
      assert t[..|t| - 1] == "0" + s[..|s| - 1];
      ValueIgnoresLeadingZero(s[..|s| - 1]);
    }
  }

  /** `s.padStart(width, "0")`: zeros in front until the string is `width` long. */
  function PadStart(s: string, width: nat): (r: string)
    decreases width - |s|
    ensures |r| == if |s| >= width then |s| else width
    ensures r[|r| - |s|..] == s
    ensures forall i :: 0 <= i < |r| - |s| ==> r[i] == '0'
  {
    if |s| >= width then s
    else
      var r := PadStart("0" + s, width);
      PadStartStep(s, r);
      r
  }

  /** One zero in front: what holds of `"0" + s` inside `r` holds of `s` with one more zero before it. */
  lemma PadStartStep(s: string, r: string)
    requires |r| >= |s| + 1
    requires r[|r| - |s| - 1..] == "0" + s
    requires forall i :: 0 <= i < |r| - |s| - 1 ==> r[i] == '0'
    ensures r[|r| - |s|..] == s
    ensures forall i :: 0 <= i < |r| - |s| ==> r[i] == '0'
  {
    assert r[|r| - |s|..] == r[|r| - |s| - 1..][1..];
    assert r[|r| - |s| - 1] == r[|r| - |s| - 1..][0];
  }

  /** Padding a digit string with zeros keeps it a digit string of the same value. */
  lemma {:induction false} PadStartKeepsValue(s: string, width: nat)
    requires AllDigits(s)
    ensures AllDigits(PadStart(s, width))
    ensures Value(PadStart(s, width)) == Value(s)
    decreases width - |s|
  {
    if |s| < width {
      ValueIgnoresLeadingZero(s);
      PadStartKeepsValue("0" + s, width);
    }
  }
}

=== FILE: dict.dfy ===
/**
 A JavaScript object used as a string-keyed dictionary. Such an object keeps
 its keys in insertion order: assigning to a present key overwrites the value
 in place, assigning to a new key appends it. The model is a sequence of
 entries with that update rule.
 */
module Dict {
  import opened Wrappers

  datatype Entry<V> = Entry(key: string, val: V)

  predicate DistinctKeys<V>(d: seq<Entry<V>>)
  {
    forall i, j :: 0 <= i < j < |d| ==> d[i].key != d[j].key
  }

  predicate HasKey<V>(d: seq<Entry<V>>, k: string)
  {
    exists i :: 0 <= i < |d| && d[i].key == k
  }

  /**
   `after` is `before` once `obj[k] = v` has run: a new key is appended at the
   end, a present key is overwritten where it stands, and nothing else moves.
   */
  ghost predicate Assigned<V>(before: seq<Entry<V>>, after: seq<Entry<V>>, k: string, v: V)
  {
    && (!HasKey(before, k) ==> after == before + [Entry(k, v)])
    && (HasKey(before, k) ==>
          exists j :: 0 <= j < |before| && before[j].key == k && after == before[j := Entry(k, v)])
  }

  /** `obj[k]`, `None` when the key is absent. */
  function Get<V>(d: seq<Entry<V>>, k: string): (r: Option<V>)
    ensures r.None? <==> !HasKey(d, k)
    ensures r.Some? ==> Entry(k, r.value) in d
  {
    if |d| == 0 then None
    else if d[0].key == k then Some(d[0].val)
    else
      var r := Get(d[1..], k);
      assert HasKey(d, k) <==> HasKey(d[1..], k) by {
        if HasKey(d, k) {
          var i :| 0 <= i < |d| && d[i].key == k;
          assert d[1..][i - 1].key == k;
        }
      }
      r
  }

  /** `obj[k] = v`. */
  function Set<V>(d: seq<Entry<V>>, k: string, v: V): (r: seq<Entry<V>>)
    ensures |r| == if HasKey(d, k) then |d| else |d| + 1
    ensures forall i :: 0 <= i < |d| && d[i].key != k ==> r[i] == d[i]
    ensures !HasKey(d, k) ==> r == d + [Entry(k, v)]
    ensures HasKey(d, k) ==> exists j :: 0 <= j < |d| && d[j].key == k && r == d[j := Entry(k, v)]
  {
    if |d| == 0 then [Entry(k, v)]
    else if d[0].key == k then
      assert [Entry(k, v)] + d[1..] == d[0 := Entry(k, v)];
      [Entry(k, v)] + d[1..]
    else
      var rest := Set(d[1..], k, v);
      var r := [d[0]] + rest;
      assert HasKey(d, k) <==> HasKey(d[1..], k) by {
        if HasKey(d, k) {
          var i :| 0 <= i < |d| && d[i].key == k;
          assert d[1..][i - 1].key == k;
        }
      }
      SetStep(d, k, v, rest);
      r
  }

  /** Where the written entry lands, carried from the tail `d[1..]` to `d` when `d[0]` has another key. */
  lemma SetStep<V>(d: seq<Entry<V>>, k: string, v: V, rest: seq<Entry<V>>)
    requires |d| > 0 && d[0].key != k
    requires !HasKey(d[1..], k) ==> rest == d[1..] + [Entry(k, v)]
    requires HasKey(d[1..], k) ==> exists j :: 0 <= j < |d| - 1 && d[1..][j].key == k && rest == d[1..][j := Entry(k, v)]
    ensures !HasKey(d[1..], k) ==> [d[0]] + rest == d + [Entry(k, v)]
    ensures HasKey(d[1..], k) ==> exists j :: 0 <= j < |d| && d[j].key == k && [d[0]] + rest == d[j := Entry(k, v)]
  {
    assert d == [d[0]] + d[1..];
    if HasKey(d[1..], k) {
      var j :| 0 <= j < |d| - 1 && d[1..][j].key == k && rest == d[1..][j := Entry(k, v)];
      assert [d[0]] + rest == d[j + 1 := Entry(k, v)];
    }
  }

  /** After `obj[k] = v`, reading `k` gives `v` and reading any other key gives what it gave before. */
  lemma {:induction false} GetAfterSet<V>(d: seq<Entry<V>>, k: string, v: V, u: string)
    ensures Get(Set(d, k, v), u) == if u == k then Some(v) else Get(d, u)
  {
    if |d| > 0 && d[0].key != k {
      GetAfterSet(d[1..], k, v, u);
    }
  }

  /** Assignment adds exactly the assigned key and never duplicates one. */
  lemma {:induction false} SetKeepsKeysDistinct<V>(d: seq<Entry<V>>, k: string, v: V)
    requires DistinctKeys(d)
    ensures DistinctKeys(Set(d, k, v))
    ensures forall u :: HasKey(Set(d, k, v), u) <==> HasKey(d, u) || u == k
  {
    if |d| > 0 && d[0].key != k {
      SetKeepsKeysDistinct(d[1..], k, v);
      var r := Set(d, k, v);
      assert r == [d[0]] + Set(d[1..], k, v);
      forall u
        ensures HasKey(r, u) <==> HasKey(d, u) || u == k
      {
        GetAfterSet(d, k, v, u);
      }
      forall j | 0 < j < |r|
        ensures r[0].key != r[j].key
      {
        GetAfterSet(d[1..], k, v, r[0].key);
        assert !HasKey(d[1..], r[0].key);
        assert Get(Set(d[1..], k, v), r[0].key).None?;
        assert Set(d[1..], k, v)[j - 1] == r[j];
      }
    } else {
      var r := Set(d, k, v);
      assert r == [Entry(k, v)] + (if |d| == 0 then [] else d[1..]);
      forall u
        ensures HasKey(r, u) <==> HasKey(d, u) || u == k
      {
        assert r[0].key == k;
        if HasKey(d, u) {
          var i :| 0 <= i < |d| && d[i].key == u;
          assert r[i].key == u;
        }
        if HasKey(r, u) && u != k {
          var i :| 0 <= i < |r| && r[i].key == u;
          assert d[i].key == u;
        }
      }
    }
  }

  /** With distinct keys, an entry is in the dictionary exactly when reading its key gives its value. */
  lemma GetOfMember<V>(d: seq<Entry<V>>, i: int)
    requires DistinctKeys(d)
    requires 0 <= i < |d|
    ensures Get(d, d[i].key) == Some(d[i].val)
  {
    var r := Get(d, d[i].key);
    var j :| 0 <= j < |d| && d[j] == Entry(d[i].key, r.value);
  }
}

=== FILE: js_values.dfy ===
/**
 The few JavaScript value semantics the handlers depend on: what a JSON
 request field can hold, truthiness (`!x`, `x || y`), `Number(x)` and
 `String.prototype.toLowerCase`.
 */
module JsValues {
  import opened Wrappers
  import Decimal

  /** A JSON field as the handlers receive it. Numbers are integral in this model. */
  datatype JsValue = Undefined | Null | Bool(b: bool) | Num(n: int) | Str(s: string)

  /** JavaScript truthiness: `undefined`, `null`, `false`, `0` and `""` are falsy. */
  function Truthy(v: JsValue): (b: bool)
    ensures !b <==> v == Undefined || v == Null || v == Bool(false) || v == Num(0) || v == Str("")
  {
    match v
    case Undefined => false
    case Null => false
    case Bool(b) => b
    case Num(n) => n != 0
    case Str(s) => s != ""
  }

  /**
   `Number(v)`, with `None` standing for `NaN`. A string converts when it is
   a (possibly empty) run of decimal digits.
   */
  function ToNumber(v: JsValue): (r: Option<int>)
    ensures v.Undefined? ==> r.None?
    ensures v.Null? || v == Bool(false) || v == Str("") ==> r == Some(0)
    ensures v == Bool(true) ==> r == Some(1)
    ensures v.Num? ==> r == Some(v.n)
    ensures v.Str? ==> (r.Some? <==> Decimal.AllDigits(v.s))
    ensures v.Str? && r.Some? ==> r.value >= 0
  {
    match v
    case Undefined => None
    case Null => Some(0)
    case Bool(b) => Some(if b then 1 else 0)
    case Num(n) => Some(n)
    case Str(s) => if Decimal.AllDigits(s) then Some(Decimal.Value(s)) else None
  }

  /** `Number(x) || fallback` and `x || fallback` for a numeric `x`: `NaN` and `0` select the fallback. */
  function OrElse(n: Option<int>, fallback: int): (r: int)
    ensures n.Some? && n.value != 0 ==> r == n.value
    ensures n.None? || n.value == 0 ==> r == fallback
    ensures fallback != 0 ==> r != 0
  {
    if n.Some? && n.value != 0 then n.value else fallback
  }

  /** `Number(String(n))` is `n` for every non-negative integer. */
  lemma NumberOfString(n: nat)
    ensures ToNumber(Str(Decimal.Show(n))) == Some(n)
  {
    Decimal.ValueOfShow(n);
  }

  function LowerChar(c: char): char
  {
    if 'A' <= c <= 'Z' then (c as int - 'A' as int + 'a' as int) as char else c
  }

  /** `s.toLowerCase()` on the ASCII letters a wallet address is written in. */
  function ToLowerCase(s: string): (r: string)
    ensures |r| == |s|
    ensures forall i :: 0 <= i < |s| ==> r[i] == LowerChar(s[i])
  {
    seq(|s|, i requires 0 <= i < |s| => LowerChar(s[i]))
  }

  predicate IsLowerCase(s: string)
  {
    ToLowerCase(s) == s
  }

  /** Lower-casing twice is lower-casing once, so every stored key is already lower case. */
  lemma LowerCaseIsIdempotent(s: string)
    ensures IsLowerCase(ToLowerCase(s))
  {
    var t := ToLowerCase(s);
    assert forall i :: 0 <= i < |t| ==> LowerChar(t[i]) == t[i];
  }

  /** Two spellings that differ only in the case of ASCII letters lower-case to the same key. */
  lemma {:induction false} CaseVariantsShareKey(a: string, b: string)
    requires |a| == |b|
    requires forall i :: 0 <= i < |a| ==> a[i] == b[i] || LowerChar(a[i]) == b[i] || a[i] == LowerChar(b[i])
    ensures ToLowerCase(a) == ToLowerCase(b)
  {
    forall i | 0 <= i < |a|
      ensures ToLowerCase(a)[i] == ToLowerCase(b)[i]
    {
      assert LowerChar(LowerChar(a[i])) == LowerChar(a[i]);
      assert LowerChar(LowerChar(b[i])) == LowerChar(b[i]);
    }
  }
}

=== FILE: keep_max_ledger.dfy ===
/**
 The score service of backend/server.js. Scores live in memory as
 `scores[roundId][wallet] = {bestScoreMs, bestScoreAt}` with the wallet
 lower-cased; a submission only ever raises a wallet's best; the leaderboard
 ranks one round; the admin finalize names every wallet that shares the top
 score and advances the local round counter. Each HTTP handler is a function
 from the state and the request to the new state and the reply.
 */
module KeepMaxLedger {
  import opened Wrappers
  import opened JsValues
  import opened Dict
  import opened Ranking

  datatype Best = Best(bestScoreMs: int, bestScoreAt: int)

  /** The module-level `scores` object and `currentRoundId`. */
  datatype State = State(scores: map<int, seq<Entry<Best>>>, currentRoundId: int)

  const Initial: State := State(map[], 1)

  /** `list.slice(0, 100)` in the leaderboard handler. */
  const LeaderboardLimit: nat := 100

  function RoundRows(st: State, r: int): seq<Entry<Best>>
  {
    if r in st.scores then st.scores[r] else []
  }

  /** `scores[r][w]`. */
  function Lookup(st: State, r: int, w: string): Option<Best>
  {
    Get(RoundRows(st, r), w)
  }

  /** At most one entry per wallet in each round, and every wallet key is lower case. */
  predicate WellFormed(st: State)
  {
    forall r :: r in st.scores ==>
      && DistinctKeys(st.scores[r])
      && forall i :: 0 <= i < |st.scores[r]| ==> IsLowerCase(st.scores[r][i].key)
  }

  lemma InitialIsWellFormed()
    ensures WellFormed(Initial)
  {
  }

  /** `ensureRound(r)`: creates an empty container for the round; no entry of any round changes. */
  function EnsureRound(st: State, r: int): (st': State)
    ensures r in st'.scores
    ensures st'.currentRoundId == st.currentRoundId
    ensures forall q :: RoundRows(st', q) == RoundRows(st, q)
    ensures WellFormed(st) ==> WellFormed(st')
  {
    if r in st.scores then st else st.(scores := st.scores[r := []])
  }

  /** `scores[r][w] = b` for a round whose container exists: only that one entry changes. */
  function Store(st: State, r: int, w: string, b: Best): (st': State)
    requires r in st.scores
    ensures st'.currentRoundId == st.currentRoundId
    ensures st'.scores.Keys == st.scores.Keys
    ensures Lookup(st', r, w) == Some(b)
    ensures forall q, u :: (q != r || u != w) ==> Lookup(st', q, u) == Lookup(st, q, u)
    ensures forall q :: q != r ==> RoundRows(st', q) == RoundRows(st, q)
    ensures Assigned(RoundRows(st, r), RoundRows(st', r), w, b)
    ensures WellFormed(st) && IsLowerCase(w) ==> WellFormed(st')
  {
    StoreFacts(st, r, w, b);
    st.(scores := st.scores[r := Set(st.scores[r], w, b)])
  }

  lemma StoreFacts(st: State, r: int, w: string, b: Best)
    requires r in st.scores
    ensures var st' := st.(scores := st.scores[r := Set(st.scores[r], w, b)]);
            && Lookup(st', r, w) == Some(b)
            && (forall q, u :: (q != r || u != w) ==> Lookup(st', q, u) == Lookup(st, q, u))
            && (WellFormed(st) && IsLowerCase(w) ==> WellFormed(st'))
  {
    var st' := st.(scores := st.scores[r := Set(st.scores[r], w, b)]);
    forall u
      ensures Lookup(st', r, u) == if u == w then Some(b) else Lookup(st, r, u)
    {
      GetAfterSet(st.scores[r], w, b, u);
    }
    if WellFormed(st) && IsLowerCase(w) {
      SetKeepsKeysDistinct(st.scores[r], w, b);
      var rows := Set(st.scores[r], w, b);
      forall i | 0 <= i < |rows|
        ensures IsLowerCase(rows[i].key)
      {
        if rows[i].key != w {
          assert HasKey(rows, rows[i].key);
          var j :| 0 <= j < |st.scores[r]| && st.scores[r][j].key == rows[i].key;
        }
      }
    }
  }

  // ---------------------------------------------------------------------
  // POST /api/submit-score

  /** The body `{ walletAddress, scoreMs, roundId }`; `roundId` is used as given, `None` when absent. */
  datatype SubmitRequest = SubmitRequest(walletAddress: JsValue, scoreMs: JsValue, roundId: Option<int>)

  /** `{ ok: true }`, 400 `invalid_payload`, or 500 `submit_failed`. */
  datatype SubmitReply = SubmitOk | InvalidPayload | SubmitFailed

  /**
   `walletAddress` is truthy and `typeof scoreMs === "number"`: a missing or
   empty wallet is refused, and so is a score sent as a string, even a
   numeric one.
   */
  function ValidPayload(req: SubmitRequest): (b: bool)
    ensures b ==> ToNumber(req.scoreMs).Some?
    ensures req.walletAddress.Undefined? || req.walletAddress.Null? || req.walletAddress == Str("") ==> !b
    ensures req.scoreMs.Str? || req.scoreMs.Undefined? || req.scoreMs.Null? ==> !b
    ensures req.walletAddress.Str? && req.walletAddress.s != "" && req.scoreMs.Num? ==> b
  {
    Truthy(req.walletAddress) && req.scoreMs.Num?
  }

  /** `roundId || currentRoundId`. */
  function SubmitRound(st: State, req: SubmitRequest): (r: int)
    ensures req.roundId.Some? && req.roundId.value != 0 ==> r == req.roundId.value
    ensures req.roundId.None? || req.roundId.value == 0 ==> r == st.currentRoundId
  {
    OrElse(req.roundId, st.currentRoundId)
  }

  /**
   The keep-the-maximum rule as seen from outside: the entry for (r, w) now
   holds max(old best, score); its timestamp moves to `now` exactly when the
   score strictly improved; every other entry of every round is as before.
   Positions are kept too, since the leaderboard breaks full ties by them:
   other rounds are untouched, and round r is unchanged or has had
   `scores[r][w]` assigned in place.
   */
  ghost predicate KeptMaximum(st: State, st': State, r: int, w: string, score: int, now: int)
  {
    var before := Lookup(st, r, w);
    var after := Lookup(st', r, w);
    && after.Some?
    && after.value.bestScoreMs == (if before.Some? then Max(before.value.bestScoreMs, score) else score)
    && (after != before <==> before.None? || score > before.value.bestScoreMs)
    && (after != before ==> after.value.bestScoreAt == now)
    && (forall q, u :: (q != r || u != w) ==> Lookup(st', q, u) == Lookup(st, q, u))
    && (forall q :: q != r ==> RoundRows(st', q) == RoundRows(st, q))
    && (after == before ==> RoundRows(st', r) == RoundRows(st, r))
    && (after != before ==> Assigned(RoundRows(st, r), RoundRows(st', r), w, after.value))
  }

  /**
   The submit handler. A truthy `walletAddress` that is not a string passes
   validation, but `walletAddress.toLowerCase()` then throws, so the reply is
   500 after `ensureRound` has already run.
   */
  function SubmitScore(st: State, req: SubmitRequest, now: int): (out: (State, SubmitReply))
    ensures out.1 == InvalidPayload <==> !ValidPayload(req)
    ensures out.1 == SubmitFailed <==> ValidPayload(req) && !req.walletAddress.Str?
    ensures out.1 == InvalidPayload ==> out.0 == st
    ensures out.1 != InvalidPayload ==> SubmitRound(st, req) in out.0.scores
    ensures out.0.currentRoundId == st.currentRoundId
    ensures out.1 == SubmitFailed ==> forall q :: RoundRows(out.0, q) == RoundRows(st, q)
    ensures out.1 == SubmitOk ==>
              KeptMaximum(st, out.0, SubmitRound(st, req), ToLowerCase(req.walletAddress.s), req.scoreMs.n, now)
    ensures WellFormed(st) ==> WellFormed(out.0)
  {
    if !ValidPayload(req) then (st, InvalidPayload)
    else
      var r := SubmitRound(st, req);
      var ensured := EnsureRound(st, r);
      if !req.walletAddress.Str? then (ensured, SubmitFailed)
      else
        var w := ToLowerCase(req.walletAddress.s);
        var score := req.scoreMs.n;
        var existing := Lookup(ensured, r, w);
        LowerCaseIsIdempotent(req.walletAddress.s);
        if existing.None? || score > existing.value.bestScoreMs then
          (Store(ensured, r, w, Best(score, now)), SubmitOk)
        else
          (ensured, SubmitOk)
  }

  /** Two submissions whose wallets differ only in letter case have the same effect. */
  lemma SubmitIgnoresWalletCase(st: State, a: string, b: string, scoreMs: JsValue, roundId: Option<int>, now: int)
    requires ToLowerCase(a) == ToLowerCase(b)
    ensures SubmitScore(st, SubmitRequest(Str(a), scoreMs, roundId), now)
         == SubmitScore(st, SubmitRequest(Str(b), scoreMs, roundId), now)
  {
  }

  /** A submission, of whatever kind, never lowers any stored best score. */
  lemma SubmitNeverLowersBest(st: State, req: SubmitRequest, now: int, r: int, w: string)
    requires Lookup(st, r, w).Some?
    ensures Lookup(SubmitScore(st, req, now).0, r, w).Some?
    ensures Lookup(SubmitScore(st, req, now).0, r, w).value.bestScoreMs >= Lookup(st, r, w).value.bestScoreMs
  {
    var out := SubmitScore(st, req, now);
    if out.1 == SubmitOk && r == SubmitRound(st, req) && w == ToLowerCase(req.walletAddress.s) {
    } else if out.1 == SubmitFailed {
      assert RoundRows(out.0, r) == RoundRows(st, r);
    }
  }

  /** A submission with its arrival time. */
  datatype Timed = Timed(req: SubmitRequest, now: int)

  /** The state after handling the submissions in order. */
  function Replay(st: State, subs: seq<Timed>): State
  {
    if |subs| == 0 then st
    else SubmitScore(Replay(st, subs[..|subs| - 1]), subs[|subs| - 1].req, subs[|subs| - 1].now).0
  }

  /** The submission is accepted and lands on entry (r, w) when the round counter is `current`. */
  predicate Targets(current: int, t: Timed, r: int, w: string)
  {
    && ValidPayload(t.req)
    && t.req.walletAddress.Str?
    && ToLowerCase(t.req.walletAddress.s) == w
    && OrElse(t.req.roundId, current) == r
  }

  /** A submission that does not target (r, w) leaves that entry as it was. */
  lemma SubmitElsewhereKeepsEntry(st: State, t: Timed, r: int, w: string)
    requires !Targets(st.currentRoundId, t, r, w)
    ensures Lookup(SubmitScore(st, t.req, t.now).0, r, w) == Lookup(st, r, w)
  {
    var out := SubmitScore(st, t.req, t.now);
    if out.1 == SubmitFailed {
      assert RoundRows(out.0, r) == RoundRows(st, r);
    }
  }

  /** No submission of `subs` targets (r, w). */
  ghost predicate NoneTargets(current: int, subs: seq<Timed>, r: int, w: string)
  {
    forall i :: 0 <= i < |subs| ==> !Targets(current, subs[i], r, w)
  }

  /** `best` is the largest score among the submissions of `subs` that target (r, w). */
  ghost predicate IsTargetMaximum(current: int, subs: seq<Timed>, r: int, w: string, best: int)
  {
    && (exists i :: 0 <= i < |subs| && Targets(current, subs[i], r, w) && subs[i].req.scoreMs.n == best)
    && (forall i :: 0 <= i < |subs| && Targets(current, subs[i], r, w) ==> subs[i].req.scoreMs.n <= best)
  }

  /**
   Starting from no entry for (r, w), after any sequence of submissions the
   entry exists exactly when some accepted submission targeted it, and its
   best score is the maximum score among those submissions.
   */
  lemma {:induction false} ReplayKeepsMaximum(st: State, subs: seq<Timed>, r: int, w: string)
    requires Lookup(st, r, w).None?
    ensures Replay(st, subs).currentRoundId == st.currentRoundId
    ensures Lookup(Replay(st, subs), r, w).None? <==> NoneTargets(st.currentRoundId, subs, r, w)
    ensures Lookup(Replay(st, subs), r, w).Some? ==>
              IsTargetMaximum(st.currentRoundId, subs, r, w, Lookup(Replay(st, subs), r, w).value.bestScoreMs)
  {
    if |subs| > 0 {
      var cur := st.currentRoundId;
      var prefix := subs[..|subs| - 1];
      var last := subs[|subs| - 1];
      ReplayKeepsMaximum(st, prefix, r, w);
      var mid := Replay(st, prefix);
      var out := SubmitScore(mid, last.req, last.now);
      if Targets(cur, last, r, w) {
        assert KeptMaximum(mid, out.0, r, w, last.req.scoreMs.n, last.now);
      } else {
        SubmitElsewhereKeepsEntry(mid, last, r, w);
      }
      ReplayStep(cur, subs, r, w, Lookup(mid, r, w), Lookup(out.0, r, w));
    }
  }

  /** The induction step of `ReplayKeepsMaximum`, stated on the entry before and after the last submission. */
  lemma ReplayStep(cur: int, subs: seq<Timed>, r: int, w: string, before: Option<Best>, after: Option<Best>)
    requires |subs| > 0
    requires before.None? <==> NoneTargets(cur, subs[..|subs| - 1], r, w)
    requires before.Some? ==> IsTargetMaximum(cur, subs[..|subs| - 1], r, w, before.value.bestScoreMs)
    requires Targets(cur, subs[|subs| - 1], r, w) ==>
               var n := subs[|subs| - 1].req.scoreMs.n;
               after.Some? && after.value.bestScoreMs == (if before.Some? then Max(before.value.bestScoreMs, n) else n)
    requires !Targets(cur, subs[|subs| - 1], r, w) ==> after == before
    ensures after.None? <==> NoneTargets(cur, subs, r, w)
    ensures after.Some? ==> IsTargetMaximum(cur, subs, r, w, after.value.bestScoreMs)
  {
    var prefix := subs[..|subs| - 1];
    var last := subs[|subs| - 1];
    assert forall i :: 0 <= i < |prefix| ==> prefix[i] == subs[i];
    if before.Some? {
      var i :| 0 <= i < |prefix| && Targets(cur, prefix[i], r, w) && prefix[i].req.scoreMs.n == before.value.bestScoreMs;
      assert subs[i] == prefix[i];
    }
  }

  // ---------------------------------------------------------------------
  // GET /api/leaderboard

  /** The round's entries in key order, each tagged with its position. */
  function StandingsOf(rows: seq<Entry<Best>>): (s: seq<Standing>)
    ensures |s| == |rows|
    ensures forall i :: 0 <= i < |rows| ==>
              s[i] == Standing(rows[i].key, rows[i].val.bestScoreMs, rows[i].val.bestScoreAt, i)
  {
    seq(|rows|, i requires 0 <= i < |rows| => Standing(rows[i].key, rows[i].val.bestScoreMs, rows[i].val.bestScoreAt, i))
  }

  datatype Board = Board(roundId: int, leaderboard: seq<Standing>)

  /**
   The leaderboard handler: `Number(roundId) || currentRoundId`, ensure the
   round, rank its entries and keep the first 100. The listed entries are
   ranked (score descending, then earlier `bestScoreAt`), come from the
   round, and outrank every entry left out.
   */
  function Leaderboard(st: State, roundId: JsValue): (out: (State, Board))
    ensures var r := OrElse(ToNumber(roundId), st.currentRoundId);
            var list := out.1.leaderboard;
            && out.0 == EnsureRound(st, r)
            && out.1.roundId == r
            && Ranked(list)
            && multiset(list) <= multiset(StandingsOf(RoundRows(st, r)))
            && |list| == Min(LeaderboardLimit, |RoundRows(st, r)|)
            && (forall k :: 0 <= k < |list| ==>
                  Entry(list[k].wallet, Best(list[k].score, list[k].at)) in RoundRows(st, r))
            && (forall k, x :: 0 <= k < |list| && x in multiset(StandingsOf(RoundRows(st, r))) - multiset(list) ==>
                  RanksAbove(list[k], x))
            && (WellFormed(st) ==> DistinctWallets(list))
  {
    var r := OrElse(ToNumber(roundId), st.currentRoundId);
    var ensured := EnsureRound(st, r);
    var rows := ensured.scores[r];
    var standings := StandingsOf(rows);
    var list := Top(standings, LeaderboardLimit);
    ListedEntriesComeFromRound(st, rows, list);
    (ensured, Board(r, list))
  }

  /** Every listed standing is an entry of the round, and distinct keys stay distinct wallets. */
  lemma ListedEntriesComeFromRound(st: State, rows: seq<Entry<Best>>, list: seq<Standing>)
    requires multiset(list) <= multiset(StandingsOf(rows))
    ensures forall k :: 0 <= k < |list| ==> Entry(list[k].wallet, Best(list[k].score, list[k].at)) in rows
    ensures DistinctKeys(rows) ==> DistinctWallets(list)
  {
    var standings := StandingsOf(rows);
    forall k | 0 <= k < |list|
      ensures Entry(list[k].wallet, Best(list[k].score, list[k].at)) in rows
    {
      assert list[k] in multiset(standings);
      var i :| 0 <= i < |standings| && standings[i] == list[k];
      assert rows[i] == Entry(list[k].wallet, Best(list[k].score, list[k].at));
    }
    if DistinctKeys(rows) {
      assert DistinctWallets(standings);
      PermutationKeepsWalletsDistinct(standings, list);
    }
  }

  // ---------------------------------------------------------------------
  // POST /api/admin/finalize-round

  /** What `contract.finalizeCurrentRound(winners)` did: no contract configured, mined, or threw. */
  datatype Payout = NoContract | Confirmed | TxFailed

  /** `{ ok, winners, txHash }`, 401 `unauthorized`, 400 `no_scores` or 500 `finalize_failed`. */
  datatype FinalizeReply = Unauthorized | NoScores | FinalizeFailed | Finalized(winners: seq<string>, onChain: bool)

  /** The `x-api-key` header is present, non-empty and equals the configured `ADMIN_API_KEY`. */
  function Authorized(apiKey: Option<string>, adminKey: Option<string>): (b: bool)
    ensures apiKey.None? || apiKey == Some("") ==> !b
    ensures adminKey.None? ==> !b
    ensures apiKey.Some? && apiKey.value != "" ==> (b <==> adminKey == apiKey)
  {
    apiKey.Some? && apiKey.value != "" && adminKey == apiKey
  }

  /** `w` holds a best score no other entry of the round exceeds. */
  predicate TopScorer(rows: seq<Entry<Best>>, w: string)
  {
    exists i :: 0 <= i < |rows| && rows[i].key == w &&
      forall j :: 0 <= j < |rows| ==> rows[j].val.bestScoreMs <= rows[i].val.bestScoreMs
  }

  /** Some standing of `s` belongs to `w` and scores `v`. */
  ghost predicate ScoresIn(s: seq<Standing>, w: string, v: int)
  {
    exists i :: 0 <= i < |s| && s[i].wallet == w && s[i].score == v
  }

  /** The wallets of the standings whose score is `v`, in order: `list.filter(...).map(item => item.wallet)`. */
  function WalletsScoring(s: seq<Standing>, v: int): (ws: seq<string>)
    ensures forall w :: w in ws <==> ScoresIn(s, w, v)
    ensures DistinctWallets(s) ==> forall i, j :: 0 <= i < j < |ws| ==> ws[i] != ws[j]
  {
    if |s| == 0 then []
    else
      var rest := WalletsScoring(s[1..], v);
      ScoresInSplit(s, v);
      if s[0].score == v then [s[0].wallet] + rest else rest
  }

  lemma ScoresInSplit(s: seq<Standing>, v: int)
    requires |s| > 0
    ensures forall w :: ScoresIn(s, w, v) <==> (s[0].wallet == w && s[0].score == v) || ScoresIn(s[1..], w, v)
    ensures DistinctWallets(s) ==> DistinctWallets(s[1..]) && !ScoresIn(s[1..], s[0].wallet, v)
  {
    forall w | ScoresIn(s, w, v)
      ensures (s[0].wallet == w && s[0].score == v) || ScoresIn(s[1..], w, v)
    {
      var i :| 0 <= i < |s| && s[i].wallet == w && s[i].score == v;
      if i > 0 {
        assert s[1..][i - 1] == s[i];
      }
    }
    forall w | ScoresIn(s[1..], w, v)
      ensures ScoresIn(s, w, v)
    {
      var i :| 0 <= i < |s[1..]| && s[1..][i].wallet == w && s[1..][i].score == v;
      assert s[i + 1] == s[1..][i];
    }
  }

  /** The winners the handler computes are exactly the wallets holding the round's top score. */
  lemma WinnersAreTopScorers(rows: seq<Entry<Best>>)
    requires |rows| > 0
    ensures var ranked := Sort(StandingsOf(rows));
            forall w :: w in WalletsScoring(ranked, ranked[0].score) <==> TopScorer(rows, w)
  {
    var standings := StandingsOf(rows);
    var ranked := Sort(standings);
    var top := ranked[0].score;
    HeadIsTopScore(rows, standings, ranked);
    var c :| 0 <= c < |rows| && rows[c].val.bestScoreMs == ranked[0].score;
    forall w
      ensures w in WalletsScoring(ranked, top) <==> TopScorer(rows, w)
    {
      if w in WalletsScoring(ranked, top) {
        WinnerIsTopScorer(rows, standings, ranked, w);
      }
      if TopScorer(rows, w) {
        var i :| 0 <= i < |rows| && rows[i].key == w &&
          forall j :: 0 <= j < |rows| ==> rows[j].val.bestScoreMs <= rows[i].val.bestScoreMs;
        TopScorerIsWinner(rows, ranked, c, i);
      }
    }
  }

  /** The head of the sorted standings holds the largest best score of the round. */
  lemma HeadIsTopScore(rows: seq<Entry<Best>>, standings: seq<Standing>, ranked: seq<Standing>)
    requires |rows| > 0 && standings == StandingsOf(rows) && ranked == Sort(standings)
    ensures |ranked| > 0
    ensures forall j :: 0 <= j < |rows| ==> rows[j].val.bestScoreMs <= ranked[0].score
    ensures exists c :: 0 <= c < |rows| && rows[c].val.bestScoreMs == ranked[0].score
  {
    HeadRanksAboveAll(ranked);
    assert ranked[0] in multiset(standings);
    var c :| 0 <= c < |standings| && standings[c] == ranked[0];
    assert rows[c].val.bestScoreMs == ranked[0].score;
    forall j | 0 <= j < |rows|
      ensures rows[j].val.bestScoreMs <= ranked[0].score
    {
      assert standings[j] in multiset(ranked);
    }
  }

  lemma WinnerIsTopScorer(rows: seq<Entry<Best>>, standings: seq<Standing>, ranked: seq<Standing>, w: string)
    requires |rows| > 0 && standings == StandingsOf(rows) && ranked == Sort(standings)
    requires forall j :: 0 <= j < |rows| ==> rows[j].val.bestScoreMs <= ranked[0].score
    requires w in WalletsScoring(ranked, ranked[0].score)
    ensures TopScorer(rows, w)
  {
    var i :| 0 <= i < |ranked| && ranked[i].wallet == w && ranked[i].score == ranked[0].score;
    assert ranked[i] in multiset(standings);
    var a :| 0 <= a < |standings| && standings[a] == ranked[i];
    assert rows[a].key == w;
  }

  /** A wallet whose entry scores at least the head's score is among the winners. */
  lemma TopScorerIsWinner(rows: seq<Entry<Best>>, ranked: seq<Standing>, c: nat, i: nat)
    requires Ranked(ranked) && multiset(ranked) == multiset(StandingsOf(rows))
    requires c < |rows| && i < |rows|
    requires rows[c].val.bestScoreMs <= rows[i].val.bestScoreMs
    requires |ranked| > 0 && rows[c].val.bestScoreMs == ranked[0].score
    ensures rows[i].key in WalletsScoring(ranked, ranked[0].score)
  {
    var standings := StandingsOf(rows);
    assert standings[i] in multiset(ranked);
    var b :| 0 <= b < |ranked| && ranked[b] == standings[i];
    assert standings[c] in multiset(ranked);
    HeadRanksAboveAll(ranked);
    assert ranked[b].score == ranked[0].score;
  }

  /**
   The admin finalize handler. Without the right API key nothing happens.
   Otherwise the round is ensured; an empty round is refused; a failed
   payout transaction is a 500 that leaves the round counter alone; in every
   other case the reply names every wallet sharing the top score and the
   local round counter moves up by one. No stored score changes.
   */
  function FinalizeRound(st: State, apiKey: Option<string>, adminKey: Option<string>, roundId: JsValue, payout: Payout)
    : (out: (State, FinalizeReply))
    ensures out.1 == Unauthorized <==> !Authorized(apiKey, adminKey)
    ensures out.1 == Unauthorized ==> out.0 == st
    ensures forall q :: RoundRows(out.0, q) == RoundRows(st, q)
    ensures out.0.currentRoundId == if out.1.Finalized? then st.currentRoundId + 1 else st.currentRoundId
    ensures Authorized(apiKey, adminKey) ==>
              var r := OrElse(ToNumber(roundId), st.currentRoundId);
              && r in out.0.scores
              && (out.1 == NoScores <==> |RoundRows(st, r)| == 0)
              && (out.1 == FinalizeFailed <==> |RoundRows(st, r)| > 0 && payout == TxFailed)
              && (out.1.Finalized? ==>
                    && |out.1.winners| > 0
                    && out.1.onChain == (payout == Confirmed)
                    && (forall w :: w in out.1.winners <==> TopScorer(RoundRows(st, r), w))
                    && (WellFormed(st) ==> forall i, j :: 0 <= i < j < |out.1.winners| ==> out.1.winners[i] != out.1.winners[j]))
  {
    if !Authorized(apiKey, adminKey) then (st, Unauthorized)
    else
      var r := OrElse(ToNumber(roundId), st.currentRoundId);
      var ensured := EnsureRound(st, r);
      var rows := ensured.scores[r];
      if |rows| == 0 then (ensured, NoScores)
      else
        var ranked := Sort(StandingsOf(rows));
        var winners := WalletsScoring(ranked, ranked[0].score);
        WinnersAreTopScorers(rows);
        ListedEntriesComeFromRound(st, rows, ranked);
        assert ranked[0].wallet in winners;
        if payout == TxFailed then (ensured, FinalizeFailed)
        else (ensured.(currentRoundId := ensured.currentRoundId + 1), Finalized(winners, payout == Confirmed))
  }

  // ---------------------------------------------------------------------
  // GET /api/current-round

  /** What `contract.currentRoundId()` gave: no contract configured, a round id, or an error. */
  datatype RoundIdRead = NotConfigured | ReadId(id: int) | ReadFailed

  /**
   The current-round handler: with a contract, the chain's counter replaces
   the local one; a failed read is a 500 that changes nothing.
   */
  function CurrentRound(st: State, read: RoundIdRead): (out: (State, Option<int>))
    ensures out.0.scores == st.scores
    ensures out.1.Some? ==> out.0.currentRoundId == out.1.value
    ensures read.ReadId? ==> out.1 == Some(read.id)
    ensures read.NotConfigured? ==> out == (st, Some(st.currentRoundId))
    ensures read.ReadFailed? ==> out == (st, None)
  {
    match read
    case NotConfigured => (st, Some(st.currentRoundId))
    case ReadId(id) => (st.(currentRoundId := id), Some(id))
    case ReadFailed => (st, None)
  }
}

=== FILE: ranking.dfy ===
/**
 Leaderboard order. Both backends sort wallet standings by score, highest
 first; the ledger in backend/server.js breaks ties by the earlier time the
 best score was set. `Array.prototype.sort` is stable, so any remaining tie
 keeps the order the standings were listed in; `seqNo` records that
 position, which makes the order total and the ranked result unique.
 */
module Ranking {

  datatype Standing = Standing(wallet: string, score: int, at: int, seqNo: nat)

  /** `a` is listed no later than `b`: higher score, then earlier time, then earlier position. */
  predicate RanksAbove(a: Standing, b: Standing)
  {
    || a.score > b.score
    || (a.score == b.score && a.at < b.at)
    || (a.score == b.score && a.at == b.at && a.seqNo <= b.seqNo)
  }

  predicate Ranked(s: seq<Standing>)
  {
    forall i, j :: 0 <= i < j < |s| ==> RanksAbove(s[i], s[j])
  }

  predicate DistinctSeqNos(s: seq<Standing>)
  {
    forall i, j :: 0 <= i < j < |s| ==> s[i].seqNo != s[j].seqNo
  }

  predicate DistinctWallets(s: seq<Standing>)
  {
    forall i, j :: 0 <= i < j < |s| ==> s[i].wallet != s[j].wallet
  }

  /** Places `x` into a ranked sequence. */
  function Insert(x: Standing, s: seq<Standing>): (r: seq<Standing>)
    requires Ranked(s)
    ensures Ranked(r)
    ensures multiset(r) == multiset(s) + multiset{x}
  {
    if |s| == 0 then [x]
    else if RanksAbove(x, s[0]) then [x] + s
    else
      var rest := Insert(x, s[1..]);
      assert s == [s[0]] + s[1..];
      assert forall j :: 0 <= j < |rest| ==> RanksAbove(s[0], rest[j]) by {
        forall j | 0 <= j < |rest|
          ensures RanksAbove(s[0], rest[j])
        {
          assert rest[j] in multiset(rest);
          if rest[j] != x {
            assert rest[j] in multiset(s[1..]);
          }
        }
      }
      [s[0]] + rest
  }

  /** Insertion sort into leaderboard order. */
  function Sort(s: seq<Standing>): (r: seq<Standing>)
    ensures Ranked(r)
    ensures multiset(r) == multiset(s)
    ensures |r| == |s|
  {
    if |s| == 0 then []
    else
      assert s == [s[0]] + s[1..];
      var r := Insert(s[0], Sort(s[1..]));
      assert |r| == |multiset(r)|;
      r
  }

  /** The head of a ranked sequence ranks above every standing in it. */
  lemma HeadRanksAboveAll(s: seq<Standing>)
    requires Ranked(s) && |s| > 0
    ensures forall x :: x in multiset(s) ==> RanksAbove(s[0], x)
  {
    forall x | x in multiset(s)
      ensures RanksAbove(s[0], x)
    {
      var i :| 0 <= i < |s| && s[i] == x;
    }
  }

  /** A standing that ranks above every other standing and its twin with the same position is the same standing. */
  lemma SamePlaceSameStanding(a: Standing, b: Standing)
    requires RanksAbove(a, b) && RanksAbove(b, a)
    ensures a.score == b.score && a.at == b.at && a.seqNo == b.seqNo
  {
  }

  /**
   Ranking is determined by the standings alone: two ranked arrangements of
   the same standings with distinct positions are equal. So the insertion
   sort here and the stable sort of the source produce the same list.
   */
  lemma {:induction false} RankedIsUnique(a: seq<Standing>, b: seq<Standing>)
    requires Ranked(a) && Ranked(b)
    requires multiset(a) == multiset(b)
    requires DistinctSeqNos(a)
    ensures a == b
  {
    assert |a| == |multiset(a)| == |b|;
    if |a| > 0 {
      assert b[0] in multiset(a);
      assert a[0] in multiset(b);
      var i :| 0 <= i < |a| && a[i] == b[0];
      var j :| 0 <= j < |b| && b[j] == a[0];
      assert RanksAbove(a[0], a[i]);
      assert RanksAbove(b[0], b[j]);
      SamePlaceSameStanding(a[0], b[0]);
      assert a[0] == b[0];
      assert a == [a[0]] + a[1..];
      assert b == [b[0]] + b[1..];
      assert multiset(a) == multiset{a[0]} + multiset(a[1..]);
      assert multiset(b) == multiset{a[0]} + multiset(b[1..]);
      assert multiset(a[1..]) == multiset(a) - multiset{a[0]};
      assert multiset(b[1..]) == multiset(b) - multiset{a[0]};
      RankedIsUnique(a[1..], b[1..]);
    }
  }

  /** The first `n` entries of the ranking: the `list.sort(...).slice(0, n)` of the source. */
  function Top(s: seq<Standing>, n: nat): (r: seq<Standing>)
    ensures Ranked(r)
    ensures |r| == if |s| <= n then |s| else n
    ensures multiset(r) <= multiset(s)
    ensures forall k, x :: 0 <= k < |r| && x in multiset(s) - multiset(r) ==> RanksAbove(r[k], x)
  {
    var sorted := Sort(s);
    var m := if |s| <= n then |s| else n;
    PrefixRanksAboveRest(sorted, m);
    sorted[..m]
  }

  /** In a ranked sequence every entry of a prefix ranks above every entry left out of it. */
  lemma PrefixRanksAboveRest(sorted: seq<Standing>, m: nat)
    requires Ranked(sorted)
    requires m <= |sorted|
    ensures multiset(sorted[..m]) <= multiset(sorted)
    ensures forall k, x :: 0 <= k < m && x in multiset(sorted) - multiset(sorted[..m]) ==> RanksAbove(sorted[k], x)
  {
    var r := sorted[..m];
    var rest := sorted[m..];
    assert sorted == r + rest;
    assert multiset(sorted) == multiset(r) + multiset(rest);
    forall k, x | 0 <= k < m && x in multiset(sorted) - multiset(r)
      ensures RanksAbove(sorted[k], x)
    {
      assert x in multiset(rest);
      var i :| 0 <= i < |rest| && rest[i] == x;
      assert sorted[m + i] == x;
    }
  }

  /** A sequence whose wallets are distinct holds each standing at most once. */
  lemma {:induction false} DistinctWalletsOccurOnce(s: seq<Standing>, x: Standing)
    requires DistinctWallets(s)
    ensures multiset(s)[x] <= 1
  {
    if |s| > 0 {
      assert s == [s[0]] + s[1..];
      DistinctWalletsOccurOnce(s[1..], x);
      if s[0] == x {
        assert x !in s[1..];
      }
    }
  }

  /** Rearranging standings whose wallets are distinct keeps the wallets distinct. */
  lemma PermutationKeepsWalletsDistinct(s: seq<Standing>, t: seq<Standing>)
    requires DistinctWallets(s)
    requires multiset(t) <= multiset(s)
    ensures DistinctWallets(t)
  {
    forall i, j | 0 <= i < j < |t|
      ensures t[i].wallet != t[j].wallet
    {
      if t[i].wallet == t[j].wallet {
        assert t[i] in multiset(s) && t[j] in multiset(s);
        var a :| 0 <= a < |s| && s[a] == t[i];
        var b :| 0 <= b < |s| && s[b] == t[j];
        assert a == b;
        assert t == t[..i] + [t[i]] + t[i + 1..j] + [t[j]] + t[j + 1..];
        assert multiset(t)[t[i]] >= 2;
        DistinctWalletsOccurOnce(s, t[i]);
        assert false;
      }
    }
  }
}

=== FILE: threshold_rounds.dfy ===
/**
 The score service of backend/index.js. Every accepted submission is
 appended to a log; after each one the service checks whether the round's
 pot has reached the payout threshold and, if it has and the payout
 transaction confirms, closes the round for its top scorer and moves the
 backend's round counter past it. Wallets are kept exactly as sent, and the
 leaderboard spans every round.

 The chain read, the signer and the payout transaction are inputs: `Chain`
 says what the pot read returned (if anything), whether a signer is
 configured and whether `finalizeRound(winner)` confirmed. Amounts are wei.
 */
module ThresholdRounds {
  import opened Wrappers
  import opened JsValues
  import opened Dict
  import opened Ranking

  /** One element of the `scores` array. */
  datatype ScoreRecord = ScoreRecord(roundId: int, wallet: string, scoreMs: int, createdAt: int)

  /** `roundsMeta[roundId]`, written once by `closeRound`. */
  datatype RoundMeta = RoundMeta(closed: bool, winner: string, finalPot: int, closedAt: int)

  datatype State = State(currentRoundId: int, scores: seq<ScoreRecord>, roundsMeta: map<int, RoundMeta>)

  const Initial: State := State(1, [], map[])

  /** `ENTRY_FEE_ETH` (0.0003 ETH) and `POT_MULTIPLIER` defaults; the threshold is their product. */
  const DefaultEntryFeeWei: nat := 300_000_000_000_000
  const DefaultPotMultiplier: nat := 333
  const DefaultThresholdWei: nat := DefaultEntryFeeWei * DefaultPotMultiplier

  /** What the chain contributes to one threshold check. `pot == None` is a failed RPC read. */
  datatype Chain = Chain(pot: Option<int>, threshold: int, hasSigner: bool, payoutConfirms: bool)

  function MetaOf(st: State, r: int): Option<RoundMeta>
  {
    if r in st.roundsMeta then Some(st.roundsMeta[r]) else None
  }

  /** `isRoundClosed(roundId)`: a round without metadata is open. */
  function IsRoundClosed(st: State, r: int): (b: bool)
    ensures b <==> MetaOf(st, r).Some? && MetaOf(st, r).value.closed
  {
    r in st.roundsMeta && st.roundsMeta[r].closed
  }

  /**
   What every reachable state satisfies: logged wallets are non-empty
   strings, logged scores are positive, and the only metadata rows are
   closed rounds with a non-empty winner.
   */
  predicate Inv(st: State)
  {
    && (forall i :: 0 <= i < |st.scores| ==> st.scores[i].wallet != "" && st.scores[i].scoreMs > 0)
    && (forall q :: q in st.roundsMeta ==> st.roundsMeta[q].closed && st.roundsMeta[q].winner != "")
  }

  lemma InitialSatisfiesInv()
    ensures Inv(Initial)
  {
  }

  /** `closeRound(roundId, winner, pot)`: the round is closed for `winner` and the counter moves to the next round. */
  function CloseRound(st: State, r: int, winner: string, pot: int, now: int): (st': State)
    ensures IsRoundClosed(st', r)
    ensures st'.roundsMeta[r].winner == winner && st'.roundsMeta[r].finalPot == pot && st'.roundsMeta[r].closedAt == now
    ensures st'.currentRoundId == r + 1
    ensures st'.scores == st.scores
    ensures forall q :: q != r ==> MetaOf(st', q) == MetaOf(st, q)
  {
    State(r + 1, st.scores, st.roundsMeta[r := RoundMeta(true, winner, pot, now)])
  }

  /** Closing a round closes exactly that round and reopens none. */
  lemma ClosedRoundsAfterClose(st: State, r: int, winner: string, pot: int, now: int, q: int)
    ensures IsRoundClosed(CloseRound(st, r, winner, pot, now), q) <==> q == r || IsRoundClosed(st, q)
  {
    if q != r {
      assert MetaOf(CloseRound(st, r, winner, pot, now), q) == MetaOf(st, q);
    }
  }

  /** `scores.filter((s) => s.roundId === roundId)`. */
  function RoundRecords(recs: seq<ScoreRecord>, r: int): (out: seq<ScoreRecord>)
    ensures forall x :: x in out <==> x in recs && x.roundId == r
    ensures |out| <= |recs|
  {
    if |recs| == 0 then []
    else
      var last := recs[|recs| - 1];
      assert recs == recs[..|recs| - 1] + [last];
      RoundRecords(recs[..|recs| - 1], r) + (if last.roundId == r then [last] else [])
  }

  /**
   The filter keeps log order and multiplicity: filtering a concatenation
   concatenates the filtered parts. With `RoundRecordsOfOne` this fixes the
   result for every log.
   */
  lemma {:induction false} RoundRecordsKeepsOrder(a: seq<ScoreRecord>, b: seq<ScoreRecord>, r: int)
    ensures RoundRecords(a + b, r) == RoundRecords(a, r) + RoundRecords(b, r)
  {
    if |b| == 0 {
      assert a + b == a;
    } else {
      var init := b[..|b| - 1];
      var last := b[|b| - 1];
      var kept := if last.roundId == r then [last] else [];
      var ab := a + b;
      assert ab[..|ab| - 1] == a + init;
      assert ab[|ab| - 1] == last;
      RoundRecordsUnfold(ab, r);
      RoundRecordsUnfold(b, r);
      RoundRecordsKeepsOrder(a, init, r);
      calc {
        RoundRecords(ab, r);
        RoundRecords(a + init, r) + kept;
        (RoundRecords(a, r) + RoundRecords(init, r)) + kept;
        RoundRecords(a, r) + (RoundRecords(init, r) + kept);
        RoundRecords(a, r) + RoundRecords(b, r);
      }
    }
  }

  /** A single record is kept exactly when it belongs to the round. */
  lemma RoundRecordsOfOne(x: ScoreRecord, r: int)
    ensures RoundRecords([x], r) == if x.roundId == r then [x] else []
  {
    assert [x][..0] == [];
  }

  /** One step of the filter, from the end of the log. */
  lemma RoundRecordsUnfold(recs: seq<ScoreRecord>, r: int)
    requires |recs| > 0
    ensures var last := recs[|recs| - 1];
            RoundRecords(recs, r) == RoundRecords(recs[..|recs| - 1], r) + (if last.roundId == r then [last] else [])
  {
  }

  /**
   Record `i` of the log is the first record of round `r` with that round's
   highest score.
   */
  ghost predicate FirstTopRecord(recs: seq<ScoreRecord>, r: int, i: int)
  {
    && 0 <= i < |recs|
    && recs[i].roundId == r
    && (forall j :: 0 <= j < |recs| && recs[j].roundId == r ==> recs[j].scoreMs <= recs[i].scoreMs)
    && (forall j :: 0 <= j < i && recs[j].roundId == r ==> recs[j].scoreMs < recs[i].scoreMs)
  }

  /**
   The record a stable sort by `scoreMs` descending puts first: the earliest
   record holding the highest score.
   */
  function LeadIndex(rs: seq<ScoreRecord>): (k: nat)
    requires |rs| > 0
    ensures k < |rs|
    ensures forall j :: 0 <= j < |rs| ==> rs[j].scoreMs <= rs[k].scoreMs
    ensures forall j :: 0 <= j < k ==> rs[j].scoreMs < rs[k].scoreMs
  {
    if |rs| == 1 then 0
    else
      var k := LeadIndex(rs[..|rs| - 1]);
      if rs[|rs| - 1].scoreMs > rs[k].scoreMs then |rs| - 1 else k
  }

  /** The records as standings ranked by score alone; ties keep their log order. */
  function RecordStandings(rs: seq<ScoreRecord>): (s: seq<Standing>)
    ensures |s| == |rs|
    ensures forall i :: 0 <= i < |rs| ==> s[i] == Standing(rs[i].wallet, rs[i].scoreMs, 0, i)
  {
    seq(|rs|, i requires 0 <= i < |rs| => Standing(rs[i].wallet, rs[i].scoreMs, 0, i))
  }

  /**
   The winner chosen by `LeadIndex` is the one `roundScores.sort((a, b) =>
   b.scoreMs - a.scoreMs)[0]` yields.
   */
  lemma LeadIsSortedHead(rs: seq<ScoreRecord>)
    requires |rs| > 0
    ensures Sort(RecordStandings(rs))[0] == RecordStandings(rs)[LeadIndex(rs)]
  {
    var standings := RecordStandings(rs);
    var sorted := Sort(standings);
    var k := LeadIndex(rs);
    HeadRanksAboveAll(sorted);
    assert standings[k] in multiset(sorted);
    assert sorted[0] in multiset(standings);
    var a :| 0 <= a < |standings| && standings[a] == sorted[0];
    assert RanksAbove(standings[k], standings[a]);
    SamePlaceSameStanding(sorted[0], standings[k]);
  }

  /** The leading record of a round's filtered records is the first top record of that round in the whole log. */
  lemma {:induction false} LeadInLog(recs: seq<ScoreRecord>, r: int)
    requires |RoundRecords(recs, r)| > 0
    ensures var rs := RoundRecords(recs, r);
            exists i :: FirstTopRecord(recs, r, i) && recs[i] == rs[LeadIndex(rs)]
  {
    var prefix := recs[..|recs| - 1];
    var last := recs[|recs| - 1];
    assert recs == prefix + [last];
    var rs := RoundRecords(recs, r);
    var rsP := RoundRecords(prefix, r);
    RoundRecordsUnfold(recs, r);
    if last.roundId != r {
      assert rs == rsP;
      LeadInLog(prefix, r);
      var i :| FirstTopRecord(prefix, r, i) && prefix[i] == rsP[LeadIndex(rsP)];
      LeadStepOther(prefix, last, r, i);
    } else if |rsP| == 0 {
      assert rs == [last];
      LeadStepFirst(prefix, last, r);
    } else {
      assert rs == rsP + [last];
      assert rs[..|rs| - 1] == rsP;
      var k := LeadIndex(rsP);
      LeadInLog(prefix, r);
      var i :| FirstTopRecord(prefix, r, i) && prefix[i] == rsP[k];
      if last.scoreMs > rsP[k].scoreMs {
        assert LeadIndex(rs) == |rs| - 1;
        LeadStepBeats(prefix, last, r, i);
      } else {
        assert LeadIndex(rs) == k;
        LeadStepKeeps(prefix, last, r, i);
      }
    }
  }

  /** A record of another round leaves the first top record where it is. */
  lemma LeadStepOther(prefix: seq<ScoreRecord>, last: ScoreRecord, r: int, i: int)
    requires last.roundId != r && FirstTopRecord(prefix, r, i)
    ensures FirstTopRecord(prefix + [last], r, i) && (prefix + [last])[i] == prefix[i]
  {
    assert forall j :: 0 <= j < |prefix| ==> (prefix + [last])[j] == prefix[j];
  }

  /** The round's first record is its first top record. */
  lemma LeadStepFirst(prefix: seq<ScoreRecord>, last: ScoreRecord, r: int)
    requires last.roundId == r && RoundRecords(prefix, r) == []
    ensures FirstTopRecord(prefix + [last], r, |prefix|) && (prefix + [last])[|prefix|] == last
  {
    var recs := prefix + [last];
    forall j | 0 <= j < |prefix|
      ensures recs[j].roundId != r
    {
      assert recs[j] == prefix[j] && prefix[j] in prefix;
    }
  }

  /** A record beating the round's top score becomes its first top record. */
  lemma LeadStepBeats(prefix: seq<ScoreRecord>, last: ScoreRecord, r: int, i: int)
    requires last.roundId == r && FirstTopRecord(prefix, r, i) && last.scoreMs > prefix[i].scoreMs
    ensures FirstTopRecord(prefix + [last], r, |prefix|) && (prefix + [last])[|prefix|] == last
  {
    assert forall j :: 0 <= j < |prefix| ==> (prefix + [last])[j] == prefix[j];
  }

  /** A record not beating the round's top score leaves the first top record where it is. */
  lemma LeadStepKeeps(prefix: seq<ScoreRecord>, last: ScoreRecord, r: int, i: int)
    requires last.roundId == r && FirstTopRecord(prefix, r, i) && last.scoreMs <= prefix[i].scoreMs
    ensures FirstTopRecord(prefix + [last], r, i) && (prefix + [last])[i] == prefix[i]
  {
    assert forall j :: 0 <= j < |prefix| ==> (prefix + [last])[j] == prefix[j];
  }

  /** `w` logged a score in `rs` that no record of `rs` exceeds. */
  ghost predicate TopScorer(rs: seq<ScoreRecord>, w: string)
  {
    exists i :: 0 <= i < |rs| && rs[i].wallet == w &&
      forall j :: 0 <= j < |rs| ==> rs[j].scoreMs <= rs[i].scoreMs
  }

  /** How one call of the threshold check ended; the last two attempted the payout for `winner`. */
  datatype CloseOutcome =
    | AlreadyClosed
    | PotUnavailable
    | BelowThreshold
    | NoScores
    | NoSigner
    | PayoutFailed(winner: string)
    | Closed(winner: string)

  /**
   `checkThresholdAndMaybeClose(roundId)`. It changes nothing unless the
   round is open, the pot was read and reaches the threshold, the round has
   scores, a signer exists and the payout confirms; then the round is closed
   for the first record holding the round's top score. A payout is only
   ever attempted for an open round.
   */
  function CheckThresholdAndMaybeClose(st: State, r: int, chain: Chain, now: int): (out: (State, CloseOutcome))
    ensures IsRoundClosed(st, r) ==> out == (st, AlreadyClosed)
    ensures !out.1.Closed? ==> out.0 == st
    ensures out.1.Closed? <==>
              && !IsRoundClosed(st, r)
              && chain.pot.Some? && chain.pot.value >= chain.threshold
              && |RoundRecords(st.scores, r)| > 0
              && chain.hasSigner && chain.payoutConfirms
    ensures (out.1.PayoutFailed? || out.1.Closed?) <==>
              && !IsRoundClosed(st, r)
              && chain.pot.Some? && chain.pot.value >= chain.threshold
              && |RoundRecords(st.scores, r)| > 0
              && chain.hasSigner
    ensures (out.1.PayoutFailed? || out.1.Closed?) ==>
              !IsRoundClosed(st, r) && TopScorer(RoundRecords(st.scores, r), out.1.winner)
    ensures (out.1.PayoutFailed? || out.1.Closed?) ==>
              exists i :: FirstTopRecord(st.scores, r, i) && st.scores[i].wallet == out.1.winner
    ensures out.1.Closed? ==> out.0 == CloseRound(st, r, out.1.winner, chain.pot.value, now)
  {
    if IsRoundClosed(st, r) then (st, AlreadyClosed)
    else if chain.pot.None? then (st, PotUnavailable)
    else if chain.pot.value < chain.threshold then (st, BelowThreshold)
    else
      var rs := RoundRecords(st.scores, r);
      if |rs| == 0 then (st, NoScores)
      else
        var winner := rs[LeadIndex(rs)].wallet;
        LeadInLog(st.scores, r);
        if !chain.hasSigner then (st, NoSigner)
        else if !chain.payoutConfirms then (st, PayoutFailed(winner))
        else (CloseRound(st, r, winner, chain.pot.value, now), Closed(winner))
  }

  /** Once a round is closed, no later threshold check attempts its payout or touches its metadata. */
  lemma ClosedRoundIsNeverPaidAgain(st: State, r: int, chain: Chain, now: int, q: int)
    requires IsRoundClosed(st, q)
    ensures var out := CheckThresholdAndMaybeClose(st, r, chain, now);
            && MetaOf(out.0, q) == MetaOf(st, q)
            && (r == q ==> !out.1.PayoutFailed? && !out.1.Closed?)
  {
  }

  // ---------------------------------------------------------------------
  // POST /api/submit-score

  /** The body `{ roundId, wallet, walletAddress, scoreMs }`. */
  datatype SubmitRequest = SubmitRequest(roundId: JsValue, wallet: JsValue, walletAddress: JsValue, scoreMs: JsValue)

  /** 400 `wallet address required`, 400 `invalid scoreMs`, or the success body. */
  datatype SubmitReply =
    | WalletRequired
    | InvalidScore
    | Recorded(roundId: int, bestScoreMs: int, roundClosed: bool, winner: Option<string>)

  /** `wallet || walletAddress`. */
  function Address(req: SubmitRequest): (a: JsValue)
    ensures Truthy(req.wallet) ==> a == req.wallet
    ensures !Truthy(req.wallet) ==> a == req.walletAddress
  {
    if Truthy(req.wallet) then req.wallet else req.walletAddress
  }

  /**
   `addr` is truthy and a string. A truthy `wallet` that is not a string is
   refused even when `walletAddress` is a proper one.
   */
  function ValidAddress(req: SubmitRequest): (b: bool)
    ensures b ==> Address(req).Str? && Address(req).s != ""
    ensures b ==> (req.wallet.Str? && req.wallet.s != "") || (req.walletAddress.Str? && req.walletAddress.s != "")
    ensures Truthy(req.wallet) && !req.wallet.Str? ==> !b
    ensures req.wallet.Str? && req.wallet.s != "" ==> b
  {
    Truthy(Address(req)) && Address(req).Str?
  }

  /** `Number(scoreMs)` is neither `NaN`, zero nor negative. */
  function ValidScore(req: SubmitRequest): (b: bool)
    ensures b ==> ToNumber(req.scoreMs).Some? && ToNumber(req.scoreMs).value > 0
    ensures req.scoreMs.Num? ==> (b <==> req.scoreMs.n > 0)
    ensures req.scoreMs.Undefined? || req.scoreMs.Null? || req.scoreMs == Bool(false) || req.scoreMs == Str("") ==> !b
    ensures req.scoreMs == Bool(true) ==> b
  {
    ToNumber(req.scoreMs).Some? && ToNumber(req.scoreMs).value > 0
  }

  /** `Number(roundId) || currentRoundId`. */
  function RequestedRound(st: State, req: SubmitRequest): (r: int)
    ensures ToNumber(req.roundId).Some? && ToNumber(req.roundId).value != 0 ==> r == ToNumber(req.roundId).value
    ensures ToNumber(req.roundId).None? || ToNumber(req.roundId).value == 0 ==> r == st.currentRoundId
  {
    OrElse(ToNumber(req.roundId), st.currentRoundId)
  }

  /** A closed round is redirected to the backend's current round; an open one is kept. */
  function EffectiveRound(st: State, req: SubmitRequest): (r: int)
    ensures !IsRoundClosed(st, RequestedRound(st, req)) ==> r == RequestedRound(st, req)
    ensures IsRoundClosed(st, RequestedRound(st, req)) ==> r == st.currentRoundId
    ensures r != RequestedRound(st, req) ==> IsRoundClosed(st, RequestedRound(st, req))
  {
    var r := RequestedRound(st, req);
    if IsRoundClosed(st, r) then st.currentRoundId else r
  }

  /** `b` is the largest score `w` logged in round `r`. */
  ghost predicate IsRoundBest(recs: seq<ScoreRecord>, r: int, w: string, b: int)
  {
    && (exists i :: 0 <= i < |recs| && recs[i].roundId == r && recs[i].wallet == w && recs[i].scoreMs == b)
    && (forall i :: 0 <= i < |recs| && recs[i].roundId == r && recs[i].wallet == w ==> recs[i].scoreMs <= b)
  }

  /** `userBest`: the maximum over `w`'s records in round `r`, starting from 0. */
  function UserBest(recs: seq<ScoreRecord>, r: int, w: string): (b: int)
    ensures b >= 0
    ensures forall i :: 0 <= i < |recs| && recs[i].roundId == r && recs[i].wallet == w ==> recs[i].scoreMs <= b
    ensures b != 0 ==> IsRoundBest(recs, r, w, b)
  {
    if |recs| == 0 then 0
    else
      var m := UserBest(recs[..|recs| - 1], r, w);
      var s := recs[|recs| - 1];
      assert forall i :: 0 <= i < |recs| - 1 ==> recs[..|recs| - 1][i] == recs[i];
      if s.roundId == r && s.wallet == w && s.scoreMs > m then s.scoreMs else m
  }

  /** `roundsMeta[r]?.winner || null`. */
  function WinnerOf(st: State, r: int): (w: Option<string>)
    ensures w.Some? <==> MetaOf(st, r).Some? && MetaOf(st, r).value.winner != ""
    ensures w.Some? ==> w.value == MetaOf(st, r).value.winner
  {
    if r in st.roundsMeta && st.roundsMeta[r].winner != "" then Some(st.roundsMeta[r].winner) else None
  }

  /** The pot was read, reaches the threshold, a signer exists and the payout confirms. */
  predicate PaysOut(chain: Chain)
  {
    chain.pot.Some? && chain.pot.value >= chain.threshold && chain.hasSigner && chain.payoutConfirms
  }

  /**
   The submit handler: validate, pick the effective round, append one
   record, run the threshold check for that round and report the caller's
   best score there. The record is stamped `createdAt`; a round the check
   closes is stamped `closedAt`, the later `Date.now()` read of `closeRound`.
   */
  function SubmitScore(st: State, req: SubmitRequest, chain: Chain, createdAt: int, closedAt: int): (out: (State, SubmitReply))
    ensures out.1 == WalletRequired <==> !ValidAddress(req)
    ensures out.1 == InvalidScore <==> ValidAddress(req) && !ValidScore(req)
    ensures !out.1.Recorded? ==> out.0 == st
    ensures out.1.Recorded? ==>
              var r := EffectiveRound(st, req);
              var w := Address(req).s;
              var n := ToNumber(req.scoreMs).value;
              && out.1.roundId == r
              && out.0.scores == st.scores + [ScoreRecord(r, w, n, createdAt)]
              && out.1.bestScoreMs >= n
              && IsRoundBest(out.0.scores, r, w, out.1.bestScoreMs)
              && out.1.roundClosed == IsRoundClosed(out.0, r)
              && (IsRoundClosed(out.0, r) <==> IsRoundClosed(st, r) || PaysOut(chain))
              && out.0.currentRoundId == (if !IsRoundClosed(st, r) && IsRoundClosed(out.0, r) then r + 1 else st.currentRoundId)
              && (forall q :: q != r ==> MetaOf(out.0, q) == MetaOf(st, q))
              && (!IsRoundClosed(st, r) && IsRoundClosed(out.0, r) ==>
                    exists i :: FirstTopRecord(out.0.scores, r, i) &&
                      out.0.roundsMeta[r] == RoundMeta(true, out.0.scores[i].wallet, chain.pot.value, closedAt))
    ensures forall q :: IsRoundClosed(st, q) ==> MetaOf(out.0, q) == MetaOf(st, q)
    ensures Inv(st) ==> Inv(out.0)
    ensures Inv(st) && out.1.Recorded? ==> (out.1.winner.Some? <==> out.1.roundClosed)
    ensures Inv(st) && out.1.Recorded? && out.1.roundClosed ==> out.1.winner == Some(out.0.roundsMeta[out.1.roundId].winner)
  {
    if !ValidAddress(req) then (st, WalletRequired)
    else if !ValidScore(req) then (st, InvalidScore)
    else
      var r := EffectiveRound(st, req);
      var w := Address(req).s;
      var n := ToNumber(req.scoreMs).value;
      var checked := CheckThresholdAndMaybeClose(st.(scores := st.scores + [ScoreRecord(r, w, n, createdAt)]), r, chain, closedAt);
      var st' := checked.0;
      AppendThenCheck(st, ScoreRecord(r, w, n, createdAt), chain, closedAt);
      CheckAfterAppend(st, ScoreRecord(r, w, n, createdAt), chain, closedAt);
      (st', Recorded(r, UserBest(st'.scores, r, w), IsRoundClosed(st', r), WinnerOf(st', r)))
  }

  /** The facts about appending a valid record and then running the threshold check. */
  lemma AppendThenCheck(st: State, rec: ScoreRecord, chain: Chain, now: int)
    requires rec.wallet != "" && rec.scoreMs > 0
    ensures var logged := st.(scores := st.scores + [rec]);
            var st' := CheckThresholdAndMaybeClose(logged, rec.roundId, chain, now).0;
            && st'.scores == logged.scores
            && UserBest(st'.scores, rec.roundId, rec.wallet) >= rec.scoreMs
            && IsRoundBest(st'.scores, rec.roundId, rec.wallet, UserBest(st'.scores, rec.roundId, rec.wallet))
            && (forall q :: IsRoundClosed(st, q) ==> MetaOf(st', q) == MetaOf(st, q))
            && (Inv(st) ==> Inv(st'))
            && (Inv(st) ==> (WinnerOf(st', rec.roundId).Some? <==> IsRoundClosed(st', rec.roundId)))
  {
    var logged := st.(scores := st.scores + [rec]);
    var st' := CheckThresholdAndMaybeClose(logged, rec.roundId, chain, now).0;
    CheckKeepsLogAndClosedRounds(logged, rec.roundId, chain, now);
    assert forall q :: IsRoundClosed(st, q) == IsRoundClosed(logged, q) && MetaOf(st, q) == MetaOf(logged, q);
    UserBestCountsLast(st.scores, rec);
    if Inv(st) {
      assert Inv(logged);
      CheckKeepsInv(logged, rec.roundId, chain, now);
      WinnerIffClosed(st', rec.roundId);
    }
  }

  /** The threshold check never edits the log and never touches an already closed round. */
  lemma CheckKeepsLogAndClosedRounds(st: State, r: int, chain: Chain, now: int)
    ensures CheckThresholdAndMaybeClose(st, r, chain, now).0.scores == st.scores
    ensures forall q :: IsRoundClosed(st, q) ==> MetaOf(CheckThresholdAndMaybeClose(st, r, chain, now).0, q) == MetaOf(st, q)
  {
  }

  /** In a state satisfying the invariant, a round names a winner exactly when it is closed. */
  lemma WinnerIffClosed(st: State, r: int)
    requires Inv(st)
    ensures WinnerOf(st, r).Some? <==> IsRoundClosed(st, r)
    ensures WinnerOf(st, r).Some? ==> WinnerOf(st, r).value == st.roundsMeta[r].winner
  {
  }

  /**
   After a record is logged in round `r`, the check closes `r` exactly when
   it was open and the chain pays out; only then does the counter move, to
   r + 1, and no other round's metadata changes.
   */
  lemma CheckAfterAppend(st: State, rec: ScoreRecord, chain: Chain, now: int)
    ensures var r := rec.roundId;
            var logged := st.(scores := st.scores + [rec]);
            var st' := CheckThresholdAndMaybeClose(logged, r, chain, now).0;
            && (IsRoundClosed(st', r) <==> IsRoundClosed(st, r) || PaysOut(chain))
            && st'.currentRoundId == (if !IsRoundClosed(st, r) && IsRoundClosed(st', r) then r + 1 else st.currentRoundId)
            && (forall q :: q != r ==> MetaOf(st', q) == MetaOf(st, q))
            && (!IsRoundClosed(st, r) && IsRoundClosed(st', r) ==>
                  exists i :: FirstTopRecord(st'.scores, r, i) &&
                    st'.roundsMeta[r] == RoundMeta(true, st'.scores[i].wallet, chain.pot.value, now))
  {
    var r := rec.roundId;
    var logged := st.(scores := st.scores + [rec]);
    assert rec in RoundRecords(logged.scores, r) by {
      assert logged.scores[|st.scores|] == rec;
    }
    var out := CheckThresholdAndMaybeClose(logged, r, chain, now);
    if out.1.Closed? {
      ClosedRoundsAfterClose(logged, r, out.1.winner, chain.pot.value, now, r);
    }
  }

  /** The caller's best after logging `rec` is at least `rec`'s score and is the maximum of their round records. */
  lemma UserBestCountsLast(recs: seq<ScoreRecord>, rec: ScoreRecord)
    requires rec.scoreMs > 0
    ensures UserBest(recs + [rec], rec.roundId, rec.wallet) >= rec.scoreMs
    ensures IsRoundBest(recs + [rec], rec.roundId, rec.wallet, UserBest(recs + [rec], rec.roundId, rec.wallet))
  {
    assert (recs + [rec])[|recs|] == rec;
  }

  /** The threshold check keeps the invariant and leaves metadata only for closed rounds with a winner. */
  lemma CheckKeepsInv(st: State, r: int, chain: Chain, now: int)
    requires Inv(st)
    ensures Inv(CheckThresholdAndMaybeClose(st, r, chain, now).0)
  {
    var checked := CheckThresholdAndMaybeClose(st, r, chain, now);
    if checked.1.Closed? {
      var rs := RoundRecords(st.scores, r);
      var i :| 0 <= i < |rs| && rs[i].wallet == checked.1.winner &&
        forall j :: 0 <= j < |rs| ==> rs[j].scoreMs <= rs[i].scoreMs;
      assert rs[i] in st.scores;
    }
  }

  // ---------------------------------------------------------------------
  // GET /api/leaderboard

  /** `w` has at least one record. */
  ghost predicate HasRecord(recs: seq<ScoreRecord>, w: string)
  {
    exists i :: 0 <= i < |recs| && recs[i].wallet == w
  }

  /** `b` is the largest score `w` logged in any round. */
  ghost predicate IsOverallBest(recs: seq<ScoreRecord>, w: string, b: int)
  {
    && (exists i :: 0 <= i < |recs| && recs[i].wallet == w && recs[i].scoreMs == b)
    && (forall i :: 0 <= i < |recs| && recs[i].wallet == w ==> recs[i].scoreMs <= b)
  }

  /** The `byWallet` object: one entry per wallet, keeping a score only when it beats the stored one. */
  function Aggregate(recs: seq<ScoreRecord>): (agg: seq<Entry<int>>)
    ensures |agg| <= |recs|
  {
    if |recs| == 0 then []
    else
      var prev := Aggregate(recs[..|recs| - 1]);
      var s := recs[|recs| - 1];
      var known := Get(prev, s.wallet);
      if known.None? || s.scoreMs > known.value then Set(prev, s.wallet, s.scoreMs) else prev
  }

  /** `byWallet` holds each logged wallet exactly once, with its best score over all rounds. */
  lemma {:induction false} AggregateIsPerWalletMax(recs: seq<ScoreRecord>)
    ensures DistinctKeys(Aggregate(recs))
    ensures forall w :: Get(Aggregate(recs), w).None? <==> !HasRecord(recs, w)
    ensures forall w :: Get(Aggregate(recs), w).Some? ==> IsOverallBest(recs, w, Get(Aggregate(recs), w).value)
  {
    if |recs| > 0 {
      var prefix := recs[..|recs| - 1];
      var s := recs[|recs| - 1];
      assert recs == prefix + [s];
      AggregateIsPerWalletMax(prefix);
      var prev := Aggregate(prefix);
      var known := Get(prev, s.wallet);
      var agg := Aggregate(recs);
      if known.None? || s.scoreMs > known.value {
        SetKeepsKeysDistinct(prev, s.wallet, s.scoreMs);
      }
      forall w
        ensures Get(agg, w).None? <==> !HasRecord(recs, w)
        ensures Get(agg, w).Some? ==> IsOverallBest(recs, w, Get(agg, w).value)
      {
        AggregateStep(prefix, s, w);
      }
    }
  }

  /** One step of the `byWallet` loop, for one wallet. */
  lemma AggregateStep(prefix: seq<ScoreRecord>, s: ScoreRecord, w: string)
    requires forall u :: Get(Aggregate(prefix), u).None? <==> !HasRecord(prefix, u)
    requires forall u :: Get(Aggregate(prefix), u).Some? ==> IsOverallBest(prefix, u, Get(Aggregate(prefix), u).value)
    ensures var recs := prefix + [s];
            && (Get(Aggregate(recs), w).None? <==> !HasRecord(recs, w))
            && (Get(Aggregate(recs), w).Some? ==> IsOverallBest(recs, w, Get(Aggregate(recs), w).value))
  {
    var recs := prefix + [s];
    assert recs[..|recs| - 1] == prefix;
    var prev := Aggregate(prefix);
    var known := Get(prev, s.wallet);
    var after := Get(Aggregate(recs), w);
    if known.None? || s.scoreMs > known.value {
      GetAfterSet(prev, s.wallet, s.scoreMs, w);
    }
    assert after == if w != s.wallet then Get(prev, w)
                    else if known.None? || s.scoreMs > known.value then Some(s.scoreMs)
                    else known;
    if w == s.wallet {
      AggregateStepSameWallet(prefix, s, known, after);
    } else {
      AggregateStepOtherWallet(prefix, s, w, Get(prev, w));
    }
  }

  lemma AggregateStepSameWallet(prefix: seq<ScoreRecord>, s: ScoreRecord, known: Option<int>, after: Option<int>)
    requires known.None? <==> !HasRecord(prefix, s.wallet)
    requires known.Some? ==> IsOverallBest(prefix, s.wallet, known.value)
    requires after == if known.None? || s.scoreMs > known.value then Some(s.scoreMs) else known
    ensures HasRecord(prefix + [s], s.wallet)
    ensures after.Some? && IsOverallBest(prefix + [s], s.wallet, after.value)
  {
    var recs := prefix + [s];
    assert recs[|prefix|] == s;
    assert forall i :: 0 <= i < |prefix| ==> recs[i] == prefix[i];
    if known.Some? {
      var i :| 0 <= i < |prefix| && prefix[i].wallet == s.wallet && prefix[i].scoreMs == known.value;
      assert recs[i] == prefix[i];
    }
  }

  lemma AggregateStepOtherWallet(prefix: seq<ScoreRecord>, s: ScoreRecord, w: string, known: Option<int>)
    requires w != s.wallet
    requires known.None? <==> !HasRecord(prefix, w)
    requires known.Some? ==> IsOverallBest(prefix, w, known.value)
    ensures known.None? <==> !HasRecord(prefix + [s], w)
    ensures known.Some? ==> IsOverallBest(prefix + [s], w, known.value)
  {
    var recs := prefix + [s];
    assert forall i :: 0 <= i < |prefix| ==> recs[i] == prefix[i];
    if HasRecord(recs, w) {
      var i :| 0 <= i < |recs| && recs[i].wallet == w;
      assert prefix[i] == recs[i];
    }
    if known.Some? {
      var i :| 0 <= i < |prefix| && prefix[i].wallet == w && prefix[i].scoreMs == known.value;
      assert recs[i] == prefix[i];
    }
  }

  /** `w` appears on the board. */
  ghost predicate Listed(board: seq<Standing>, w: string)
  {
    exists k :: 0 <= k < |board| && board[k].wallet == w
  }

  function AggregateStandings(agg: seq<Entry<int>>): (s: seq<Standing>)
    ensures |s| == |agg|
    ensures forall k :: 0 <= k < |agg| ==> s[k] == Standing(agg[k].key, agg[k].val, 0, k)
  {
    seq(|agg|, k requires 0 <= k < |agg| => Standing(agg[k].key, agg[k].val, 0, k))
  }

  /**
   The global leaderboard: one standing per logged wallet, valued at that
   wallet's best score over every round, sorted by score descending.
   */
  function Leaderboard(st: State): (board: seq<Standing>)
    ensures forall i, j :: 0 <= i < j < |board| ==> board[i].score >= board[j].score
    ensures Ranked(board) && multiset(board) == multiset(AggregateStandings(Aggregate(st.scores)))
    ensures DistinctWallets(board)
    ensures forall k :: 0 <= k < |board| ==> IsOverallBest(st.scores, board[k].wallet, board[k].score)
    ensures forall w :: HasRecord(st.scores, w) ==> Listed(board, w)
  {
    var agg := Aggregate(st.scores);
    var standings := AggregateStandings(agg);
    var board := Sort(standings);
    LeaderboardFacts(st.scores, board);
    board
  }

  lemma LeaderboardFacts(recs: seq<ScoreRecord>, board: seq<Standing>)
    requires multiset(board) == multiset(AggregateStandings(Aggregate(recs)))
    ensures DistinctWallets(board)
    ensures forall k :: 0 <= k < |board| ==> IsOverallBest(recs, board[k].wallet, board[k].score)
    ensures forall w :: HasRecord(recs, w) ==> Listed(board, w)
  {
    var agg := Aggregate(recs);
    var standings := AggregateStandings(agg);
    AggregateIsPerWalletMax(recs);
    assert DistinctWallets(standings);
    PermutationKeepsWalletsDistinct(standings, board);
    forall k | 0 <= k < |board|
      ensures IsOverallBest(recs, board[k].wallet, board[k].score)
    {
      assert board[k] in multiset(standings);
      var i :| 0 <= i < |standings| && standings[i] == board[k];
      GetOfMember(agg, i);
    }
    forall w | HasRecord(recs, w)
      ensures Listed(board, w)
    {
      var v := Get(agg, w).value;
      assert Entry(w, v) in agg;
      var i :| 0 <= i < |agg| && agg[i] == Entry(w, v);
      assert standings[i] in multiset(board);
      var k :| 0 <= k < |board| && board[k] == standings[i];
    }
  }

  // ---------------------------------------------------------------------
  // A reachable case the redirect does not cover

  /** A chain whose pot has reached the default threshold, with a signer and a confirming payout. */
  const PaidOut: Chain := Chain(Some(DefaultThresholdWei), DefaultThresholdWei, true, true)

  const AfterFirst: State :=
    State(3, [ScoreRecord(2, "0xa", 1000, 10)], map[2 := RoundMeta(true, "0xa", DefaultThresholdWei, 11)])

  const AfterSecond: State :=
    State(2, [ScoreRecord(2, "0xa", 1000, 10), ScoreRecord(1, "0xb", 2000, 20)],
          map[2 := RoundMeta(true, "0xa", DefaultThresholdWei, 11), 1 := RoundMeta(true, "0xb", DefaultThresholdWei, 21)])

  /** A first score for round 2 closes round 2 and moves the counter to 3. */
  lemma FirstScoreClosesRoundTwo()
    ensures SubmitScore(Initial, SubmitRequest(Num(2), Str("0xa"), Undefined, Num(1000)), PaidOut, 10, 11).0 == AfterFirst
  {
    var req := SubmitRequest(Num(2), Str("0xa"), Undefined, Num(1000));
    var rec := ScoreRecord(2, "0xa", 1000, 10);
    assert ValidAddress(req) && ValidScore(req);
    assert EffectiveRound(Initial, req) == 2;
    var logged := Initial.(scores := Initial.scores + [rec]);
    assert logged.scores == [rec];
    assert RoundRecords([rec], 2) == [rec] by {
      assert [rec][..0] == [];
    }
    assert LeadIndex([rec]) == 0;
    CheckClosesFor(logged, 2, PaidOut, 11, "0xa");
  }

  /** When `winner` holds the leading record of an open round, a paid-out check closes the round for `winner` with the pot. */
  lemma CheckClosesFor(st: State, r: int, chain: Chain, now: int, winner: string)
    requires !IsRoundClosed(st, r)
    requires chain.pot.Some? && chain.pot.value >= chain.threshold && chain.hasSigner && chain.payoutConfirms
    requires var rs := RoundRecords(st.scores, r); |rs| > 0 && rs[LeadIndex(rs)].wallet == winner
    ensures CheckThresholdAndMaybeClose(st, r, chain, now) == (CloseRound(st, r, winner, chain.pot.value, now), Closed(winner))
  {
  }

  /** A later score for round 1 closes round 1 and moves the counter back to 2, a closed round. */
  lemma SecondScoreClosesRoundOne()
    ensures SubmitScore(AfterFirst, SubmitRequest(Num(1), Str("0xb"), Undefined, Num(2000)), PaidOut, 20, 21).0 == AfterSecond
  {
    var req := SubmitRequest(Num(1), Str("0xb"), Undefined, Num(2000));
    var rec := ScoreRecord(1, "0xb", 2000, 20);
    assert ValidAddress(req) && ValidScore(req);
    assert EffectiveRound(AfterFirst, req) == 1;
    var recs := AfterFirst.scores + [rec];
    var logged := AfterFirst.(scores := recs);
    assert recs[..1] == AfterFirst.scores;
    assert RoundRecords(AfterFirst.scores, 1) == [] by {
      assert AfterFirst.scores[..0] == [];
    }
    assert RoundRecords(recs, 1) == [rec];
    assert LeadIndex([rec]) == 0;
    CheckClosesFor(logged, 1, PaidOut, 21, "0xb");
    assert CloseRound(logged, 1, "0xb", DefaultThresholdWei, 21) == AfterSecond;
  }

  /**
   Redirecting a closed round to `currentRoundId` does not keep scores out
   of closed rounds: once round 2 and then round 1 have closed, the counter
   is back at 2, and a score sent for round 1 is logged in the closed
   round 2.
   */
  lemma RedirectCanLandInClosedRound()
    ensures IsRoundClosed(AfterSecond, 1) && IsRoundClosed(AfterSecond, 2)
    ensures var out := SubmitScore(AfterSecond, SubmitRequest(Num(1), Str("0xc"), Undefined, Num(3000)), PaidOut, 30, 31);
            && out.1.Recorded?
            && out.1.roundId == 2
            && out.1.roundClosed
            && out.0.scores[|out.0.scores| - 1] == ScoreRecord(2, "0xc", 3000, 30)
  {
    var req := SubmitRequest(Num(1), Str("0xc"), Undefined, Num(3000));
    assert ValidAddress(req) && ValidScore(req);
    assert EffectiveRound(AfterSecond, req) == 2;
    var out := SubmitScore(AfterSecond, req, PaidOut, 30, 31);
    assert out.0.scores == AfterSecond.scores + [ScoreRecord(2, "0xc", 3000, 30)];
  }
}

=== FILE: wrappers.dfy ===
/** The optional value used wherever the source has `null`, `undefined` or a missing key. */
module Wrappers {

  datatype Option<+T> = None | Some(value: T)

  function Max(a: int, b: int): int
  {
    if a >= b then a else b
  }

  function Min(a: int, b: int): int
  {
    if a <= b then a else b
  }
}
